=== FILE: README.md ===
# SHACL to schema converters, modelled in Dafny

The repository turns SHACL shape graphs into flat JSON schemas for the
ViziQuer query tool. Two converters do the work, and both are modelled here.

- **ViziQuer converter** (`convertToViziQuerSchema`, `extractPrefixes` and
  `getLocalNameAndPrefix` in `shacl_to_viziquer.js`):
  - Every subject typed `sh:NodeShape` becomes a class. It carries its
    `rdfs:subClassOf` superclasses, an instance count and a list of
    properties.
  - Every property shape that a node shape lists under `sh:property` and
    that has an `sh:path` becomes an attribute when it names an
    `sh:datatype`. Without a datatype it becomes an association when it
    names an `sh:class`, an `sh:node`, or a typed `sh:or` alternative that
    names a class. A shape without a path, or with none of these, is
    dropped.
  - Associations pair every source class with every target class.
  - Finally every namespace the schema uses gets a prefix: the configured
    one, or a minted `ns1`, `ns2`, ….
- **OBIS converter** (`convertShaclToObis` in
  `SHACLtoJSON/shacl_to_obis.js`):
  - It keeps the DBLP classes and properties.
  - It resolves each property's source class through the first node shape
    that lists it under `sh:property` and has an `sh:targetClass`.
  - It fills records of a fixed shape, using placeholder counts.

The triple store is a `seq<Triple>`, and its order is the order in which the
converters iterate it. Terms are compared by their lexical value. The ViziQuer
converter does exactly that, comparing `.value` strings. For the OBIS
converter's `getQuads` lookups it is an approximation, described under
"Left out".

Two pick-one rules follow the code:
- The ViziQuer converter overwrites a variable on every match, so it keeps
  the **last** value (`Rdf.Last`).
- The OBIS converter takes `getQuads(...)[0]`, the **first** value
  (`Rdf.First`).

What `parseInt` makes of a literal is carried by the literal itself (`Card`,
an integer or NaN). The SPARQL count service is a function parameter
(`ViziQuer.CountService`) that already reads a failed request as 0.

Modules:
- `seqs.dfy`: set iteration order (`Distinct`), filtered pushes (`Choose`) and sums.
- `text.dfy`: `lastIndexOf`, `split(c).pop()`, `split(':')[1]` and counter rendering.
- `rdf.dfy`: terms, triples, vocabulary constants, and the scans over the store.
- `prefixes.dfy`: the prefix table, URI splitting, namespace collection and prefix assignment.
- `parameters.dfy`: the fixed `Parameters` list.
- `viziquer.dfy`: the ViziQuer converter.
- `obis.dfy`: the OBIS converter.

Some behaviour of the code is easy to misread; the model keeps it as written:
- Association targets are only partly deduplicated. The `sh:class` and
  `sh:or` targets are merged without repetition, and only when there are
  `sh:or` targets. The `sh:node` target classes are then appended as they
  come, repetitions included (`ViziQuer.Targets`).
- Source classes and class-pair members pass through `split(':')[1]`
  before their namespaces are collected. They therefore never add an entry
  to the prefix list (`ViziQuer.SourceClassesAddNoPrefix`).
- The prefix list can repeat a prefix (see Findings). `ViziQuer.Convert`
  builds it as the code does; `ViziQuer.ConvertCorrected` builds it with the
  collision check.
- `sh:or` is read as a single node typed `sh:PropertyShape`, not as an RDF
  list.

## Model

| member | source | states |
|---|---|---|
| Seqs.Distinct | shacl_to_viziquer.js:181-186 | Iterating a `Set` filled from a sequence yields every element of the sequence exactly once, and nothing else, in order of first insertion |
| Seqs.Choose | shacl_to_viziquer.js:231-241 | A loop that pushes a record for some elements and skips the others yields exactly the records of the elements that produce one, never more than there are elements |
| Seqs.ChooseInOrder | shacl_to_viziquer.js:231-241 | Those records come in the order of the elements: one per element that produces one, and the record of the i-th element sits right after the records of the elements before it |
| Seqs.SumOfLone | shacl_to_viziquer.js:282-292 | A sum whose terms are all 0 but one equals that term |
| Text.LastIndexOf | SHACLtoJSON/shacl_to_obis.js:86 | `lastIndexOf(c)` is -1 when `c` does not occur, and otherwise a position holding `c` with no `c` after it |
| Text.IndexOf | shacl_to_viziquer.js:100 | `indexOf(c)` is -1 when `c` does not occur, and otherwise the position of the first `c` |
| Text.AfterLast | SHACLtoJSON/shacl_to_obis.js:85 | `split(c).pop()` is the suffix after the last `c`, so it contains no `c`; without a `c` it is the whole string |
| Text.AfterLastEmpty | SHACLtoJSON/shacl_to_obis.js:85 | `split(c).pop()` is empty exactly when the string is empty or ends with `c` |
| Text.SecondField | shacl_to_viziquer.js:100 | `split(':')[1]` of a string containing ':' contains no ':' |
| Text.NatToStringInjective | shacl_to_viziquer.js:116 | Different counter values render as different decimal strings |
| Rdf.ObjectValues | shacl_to_viziquer.js:212-217 | A value is collected for (s, p) exactly when the store holds (s, p, value) |
| Rdf.ObjectValuesInOrder | shacl_to_viziquer.js:212-217 | The values come in store order: one per (s, p) triple, and the value of the triple at position i comes right after the values of the earlier (s, p) triples |
| Rdf.Subjects | shacl_to_viziquer.js:301-306 | A subject is collected for (p, o) exactly when the store holds (subject, p, o) |
| Rdf.SubjectsInOrder | shacl_to_viziquer.js:301-306 | The subjects come in store order: one per (_, p, o) triple, and the subject of the triple at position i comes right after those of the earlier matching triples |
| Rdf.Occurrences | shacl_to_viziquer.js:282-283 | The number of times the scan meets (s, p, o) is zero exactly when the store does not hold it |
| Rdf.First | SHACLtoJSON/shacl_to_obis.js:76 | `getQuads(s, p, null)[0]` is absent exactly when no triple has subject s and predicate p, and otherwise is the object of the earliest such triple |
| Rdf.Last | shacl_to_viziquer.js:222-229 | A scan that overwrites a variable on every match ends with nothing exactly when no triple matches, and otherwise with the object of the latest matching triple |
| Rdf.FirstAndLastOfObjects | shacl_to_viziquer.js:274-279 | The first and last lookups are the first and last entries of the full list of objects, and both are absent when that list is empty |
| Rdf.CardOrLast | shacl_to_viziquer.js:226-238 | A cardinality read as "parseInt of the last value, else the default" is the default when no (s, p) triple exists, and otherwise parseInt of the object of the LAST (s, p) triple |
| Rdf.CardOrFirst | SHACLtoJSON/shacl_to_obis.js:124-125 | A cardinality read as "parseInt of `getQuads(...)[0]`, else the default" is the default when no (s, p) triple exists, and otherwise parseInt of the object of the FIRST (s, p) triple |
| Prefixes.PrefixObject | shacl_to_viziquer.js:152 | `Object.fromEntries` over the configured prefixes keeps one entry per distinct prefix and covers every configured prefix. Each entry is the last configured entry with that prefix, and the entries are listed in order of each prefix's first configured entry |
| Prefixes.LocalNameAndPrefix | shacl_to_viziquer.js:171-178 | When the i-th table entry is the first whose namespace starts the URI, the prefix is that entry's and the local name is the rest of the URI. When no namespace starts it, the prefix is null and the local name is the whole URI |
| Prefixes.Qualified | shacl_to_viziquer.js:249-252 | The first table entry whose namespace starts the URI decides: with a non-empty prefix the URI is written `prefix:rest`, with an empty one it is written unchanged. A URI no namespace starts is written unchanged |
| Prefixes.NamespaceOf | shacl_to_viziquer.js:81-89 | A string contributes a namespace exactly when it is an http(s) URI. The namespace is a non-empty head of the URI ending in '#' or '/', with no '#' or '/' after it in the URI |
| Prefixes.ColonPart | shacl_to_viziquer.js:100-107 | What `s.includes(':') ? s.split(':')[1] : s` leaves contains no ':', so it never contributes a namespace |
| Prefixes.UsedNamespaces | shacl_to_viziquer.js:77-109 | The used namespaces have no repetition, a namespace is used exactly when some scanned URI contributes it, and they are listed in the order the scan first meets them |
| Prefixes.SeededPrefix | shacl_to_viziquer.js:78 | The configured prefix for a namespace is absent exactly when no configured entry names it, and otherwise is the prefix of the last entry that does |
| Prefixes.AutoPrefixInjective | shacl_to_viziquer.js:116 | Different counter values mint different `ns` prefixes |
| Prefixes.AssignAsWritten | shacl_to_viziquer.js:112-120 | As written: one entry per used namespace, in order. A namespace with a non-empty configured prefix keeps it; every other one gets `ns` followed by the counter plus the number of earlier namespaces without one |
| Prefixes.ExtractPrefixesAsWritten | shacl_to_viziquer.js:75-123 | As written: the prefix list names the used namespaces, in order. A namespace with a non-empty configured prefix keeps it, and the others get `ns1`, `ns2`, … in the order they are met, whatever the configured prefixes are |
| Prefixes.AsWrittenRepeatsAPrefix | shacl_to_viziquer.js:113-120 | As written, a configured prefix `ns1` and one namespace without a prefix make two different namespaces share the prefix `ns1` |
| Prefixes.FreshCounter | shacl_to_viziquer.js:115-117 | Corrected: the next counter value whose minted prefix is not taken, skipping only taken ones; the code never skips |
| Prefixes.AssignDistinct | shacl_to_viziquer.js:112-120 | Corrected assignment: configured prefixes are kept, and a minted prefix is neither taken nor minted twice |
| Prefixes.ExtractPrefixes | shacl_to_viziquer.js:75-123 | Corrected: the prefix list names the used namespaces, in order, one entry per namespace of a scanned URI and none for any other namespace. Configured prefixes are kept, and minted ones never clash with a configured prefix |
| Prefixes.ExtractedPrefixesAreDistinct | shacl_to_viziquer.js:113-120 | When the configuration gives distinct namespaces distinct prefixes, the corrected prefix list never repeats a prefix |
| Prefixes.ExtractionAgreesWithoutMintedNames | shacl_to_viziquer.js:113-120 | When no configured prefix has the form `nsK`, the corrected prefix list is exactly the one the code builds |
| ViziQuer.SplitName | shacl_to_viziquer.js:171-178 | The first table entry whose namespace starts the URI decides: its prefix, written `prefix or undefined`, and the rest of the URI as local name. With no such entry the prefix is absent and the local name is the whole URI. Either way the parts put back together give the URI |
| ViziQuer.SplitNameTakesFirstEntry | shacl_to_viziquer.js:172-176 | With `a` for `http://x/` listed before `b` for `http://x/y/`, the URI `http://x/y/z` splits as `a` and `y/z`: the loop returns at the first namespace that matches, not at the longest |
| ViziQuer.NodeShapes | shacl_to_viziquer.js:181-186 | The class URIs have no repetition, a URI is one exactly when the store types it `sh:NodeShape`, and they are listed in order of their first typing triple |
| ViziQuer.PropertyRefOf | shacl_to_viziquer.js:220-241 | A class property entry exists exactly when the shape's last `sh:path` value is non-empty, and that value is its full name. Its prefix and local name are the first-match split of that name (`SplitName`). Its type is the last `sh:datatype` value when non-empty, xsd:string otherwise. Its minimum and maximum are parseInt of the last `sh:minCount` / `sh:maxCount`, defaulting to 0 and 1 |
| ViziQuer.ClassOf | shacl_to_viziquer.js:189-255 | A class entry is named by the node shape itself, and its prefix and local name are the first-match split of that name (`SplitName`). It lists the qualified `rdfs:subClassOf` values of the shape in order. Its instance count is the last `void:entities` count unless that is 0, in which case it is the count service's. Its properties are exactly the entries of the shapes it lists under `sh:property`, in the order of those shapes |
| ViziQuer.Classes | shacl_to_viziquer.js:181-256 | One class per node shape, in node shape order: a URI names a class exactly when the store types it `sh:NodeShape`, and no two classes share a name |
| ViziQuer.ReferencedShapes | shacl_to_viziquer.js:259-264 | The property shapes examined have no repetition, and a shape is one exactly when some node shape lists it under `sh:property` |
| ViziQuer.OrTargetsOf | shacl_to_viziquer.js:280-295 | A class is an `sh:or` target exactly when some alternative is typed `sh:PropertyShape` and names it with `sh:class` |
| ViziQuer.EntitySum | shacl_to_viziquer.js:284-292 | One inner scan adds up parseInt-or-0 of every `void:entities` object of the alternative, in store order, and adds 0 when there is none |
| ViziQuer.OrEntitiesOf | shacl_to_viziquer.js:282-292 | `orEntities` is 0 when every alternative is untyped or has entity total 0 |
| ViziQuer.LoneContributor | shacl_to_viziquer.js:282-292 | When all alternatives but one add nothing, `orEntities` is that alternative's entity total once per typing triple |
| ViziQuer.ReadShape | shacl_to_viziquer.js:268-297 | The scan over a shape ends with the last `sh:path`, `sh:datatype`, `sh:class`, `sh:node`, `sh:minCount` and `sh:maxCount` values. Its `sh:or` targets are exactly the classes typed alternatives name, non-empty exactly when there is one, collected alternative by alternative in store order (`OrTargetsOf`), and its `orEntities` is the total over the `sh:or` alternatives in store order |
| ViziQuer.ScanAlternativeBody | shacl_to_viziquer.js:284-292 | The innermost `store.forEach` collects the alternative's `sh:class` values in store order and the sum of its `void:entities` counts |
| ViziQuer.ScanAlternative | shacl_to_viziquer.js:282-293 | The middle `store.forEach` runs the inner scan once per triple typing the alternative `sh:PropertyShape`, so it yields that many copies of the classes and that multiple of the entity sum |
| ViziQuer.ScanShape | shacl_to_viziquer.js:272-297 | The nested `store.forEach` over a shape, with its overwriting assignments and `sh:or` accumulation, ends with the facts `ReadShape` states |
| ViziQuer.SourceClasses | shacl_to_viziquer.js:301-318 | The source classes are the qualified subjects of the (_, `sh:property`, shape) triples: one per triple, in store order, and a written class occurs exactly when such a subject qualifies to it |
| ViziQuer.Targets | shacl_to_viziquer.js:328-337 | The targets are exactly the `sh:class`, the `sh:or` targets and the node shape's target classes. The node shape's target classes come last, unmerged and in store order. Before them stands the `sh:class` alone when there are no `sh:or` targets; otherwise the `sh:class` and the `sh:or` targets, without repetition, in order of first occurrence with the `sh:class` first |
| ViziQuer.Pairs | shacl_to_viziquer.js:340-349 | The class pairs number sources times targets, and a pair occurs exactly when its source is a source class and its target a target |
| ViziQuer.PairsAreSourceMajor | shacl_to_viziquer.js:340-349 | The pair of the i-th source and the j-th target sits at position i × (number of targets) + j |
| ViziQuer.AttributeOf | shacl_to_viziquer.js:299-325 | A shape becomes an attribute exactly when its last path and last datatype are non-empty, whatever else it declares. Its name and type are those values, its prefix and local name the first-match split of the name (`SplitName`), its minimum and maximum parseInt of the last counts, defaulting to 0 and 1, and its source classes are the shape's |
| ViziQuer.AssociationOf | shacl_to_viziquer.js:299-359 | A shape becomes an association exactly when it has a last path, no datatype, and a class, a node or a typed `sh:or` target; it is kept even with no targets. Its prefix and local name are the first-match split of its name (`SplitName`). Its maximum defaults to -1. Its pairs are the source classes crossed with the qualified targets, source by source. Its triple count is the `sh:or` entity total when positive, else the count service's |
| ViziQuer.Attributes | shacl_to_viziquer.js:268-324 | The attributes are exactly those of the referenced shapes, one per shape that yields one, in the order of those shapes |
| ViziQuer.Associations | shacl_to_viziquer.js:268-358 | The associations are exactly those of the referenced shapes, one per shape that yields one, in the order of those shapes |
| ViziQuer.Convert | shacl_to_viziquer.js:150-366 | The schema carries the classes, attributes and associations above, split against the configured prefix object. Its prefix list is the as-written extraction over the URIs the schema emits, so it names the used namespaces in order. Its parameters name the endpoint and schema |
| ViziQuer.ConvertCorrected | shacl_to_viziquer.js:362-363 | The schema with the corrected prefix list: every other field is the converter's, the list names the used namespaces in order, and no namespace appears twice |
| ViziQuer.ConvertAgreesWithoutMintedNames | shacl_to_viziquer.js:113-120 | When no configured prefix has the form `nsK`, the corrected schema is the converter's schema |
| ViziQuer.ClassPropertiesHavePaths | shacl_to_viziquer.js:231 | Every class property comes from a shape the class lists, and that shape's last non-empty path is its full name |
| ViziQuer.AttributesHavePaths | shacl_to_viziquer.js:299 | Every attribute comes from a referenced shape whose last non-empty path is its full name |
| ViziQuer.AssociationsHavePaths | shacl_to_viziquer.js:299 | Every association comes from a referenced shape whose last non-empty path is its full name |
| ViziQuer.SourceClassesAddNoPrefix | shacl_to_viziquer.js:97-109 | The prefix list is the one that class names, superclasses, property names, attribute names and types, and association names alone give. Source classes and class pairs never change it |
| ViziQuer.ConvertedPrefixesDistinct | shacl_to_viziquer.js:363 | With a configuration that gives distinct namespaces distinct prefixes, the corrected schema's prefixes never repeat |
| Obis.LocalName | SHACLtoJSON/shacl_to_obis.js:85 | For a URI with a '#' that does not end in '#', the local name is the '#'-free text after the last '#'. For a URI without '#' it is the whole URI |
| Obis.TrailingHashFallsBack | SHACLtoJSON/shacl_to_obis.js:85 | For a URI ending in '#', `split('#').pop()` is empty, so the local name is what follows the last '/' |
| Obis.NamespacePart | SHACLtoJSON/shacl_to_obis.js:86 | The namespace is a head of the URI that ends at its last '#', and is "" when there is no '#' |
| Obis.NamesRoundTrip | SHACLtoJSON/shacl_to_obis.js:85-86 | For a URI that has a '#' and does not end in one, namespace followed by local name is the URI |
| Obis.DblpNamespace | SHACLtoJSON/shacl_to_obis.js:82-86 | The namespace of a DBLP URI starts with the DBLP namespace |
| Obis.DblpSplit | SHACLtoJSON/shacl_to_obis.js:82-86 | A DBLP URI has a '#', so its namespace ends at its last '#', starts with the DBLP namespace, and with the local name gives the URI back unless the URI ends in '#' |
| Obis.DblpExcludesRdfType | SHACLtoJSON/shacl_to_obis.js:112 | A DBLP URI is never rdf:type, so the extra rdf:type test rejects nothing the DBLP test lets through |
| Obis.NodeShapeList | SHACLtoJSON/shacl_to_obis.js:73 | A subject is listed exactly when the store types it `sh:NodeShape`, once per typing triple, in store order: the subject of the typing triple at position i comes right after those of the earlier typing triples |
| Obis.ClassFor | SHACLtoJSON/shacl_to_obis.js:74-98 | A node shape yields a class exactly when its FIRST `sh:targetClass` value exists and starts with the DBLP namespace. The class is named by that value. Its namespace runs up to the last '#' and its local name is `LocalName` of the name, so the two reassemble it. It has instance count 1, superclass rdfs:Resource and empty property lists |
| Obis.SourceClassOf | SHACLtoJSON/shacl_to_obis.js:129-141 | The source class is absent exactly when no node shape both lists the property and has a target class. Otherwise it is the first target class of the first node shape, in node shape order, that does |
| Obis.PropertyFor | SHACLtoJSON/shacl_to_obis.js:104-141 | A property shape yields a property exactly when its FIRST path exists, starts with the DBLP namespace, and a non-empty source class is found. The property is named by that path, split at its last '#' into namespace and local name as for classes. It carries that source class, reads min and max from the first counts (defaults 0 and -1), and has a data type or a closed range exactly when the first `sh:datatype` or `sh:class` value is non-empty, holding that value |
| Obis.PropertyRecord | SHACLtoJSON/shacl_to_obis.js:114-178 | The record is named by the path, split at its last '#' into namespace and local name. It is well formed: one source class carrying min (default 0) and max (default -1) read from the FIRST counts, and counts that match the lists. It has a data type entry exactly when the first datatype is non-empty and a closed range with a target class entry exactly when the first class is, each holding that value |
| Obis.Classes | SHACLtoJSON/shacl_to_obis.js:73-98 | The classes are exactly those the node shape typings yield, one per typing that yields one, in `getQuads` order: two typings whose first target class is the same DBLP class give two entries |
| Obis.Properties | SHACLtoJSON/shacl_to_obis.js:101-181 | The properties are exactly those the property shape typings yield, one per typing that yields one, in `getQuads` order |
| Obis.Convert | SHACLtoJSON/shacl_to_obis.js:47-185 | The classes and properties are those `Obis.Classes` and `Obis.Properties` state: exactly those the node shapes and property shapes yield, all in the DBLP namespace and all well formed. The prefixes are the five fixed entries, and the parameters name the fixed endpoint |

## Findings

| source | as written | input that shows it | evidently intended | confidence | as-written member | corrected member |
|---|---|---|---|---|---|---|
| shacl_to_viziquer.js:113-120 | a namespace without a configured prefix gets `ns${counter}` even when a configured namespace already has that prefix | configured `ns1` for `http://a/`, used namespaces `http://a/` and `http://b/`: both get `ns1` | a minted prefix skips names that are configured or already minted, so prefixes stay distinct | not executed | Prefixes.AsWrittenRepeatsAPrefix | Prefixes.ExtractedPrefixesAreDistinct |

`Prefixes.AssignAsWritten` and `Prefixes.ExtractPrefixesAsWritten` model the
loop as written, and `ViziQuer.Convert` uses them, as the converter does.
`Prefixes.AssignDistinct` and `Prefixes.ExtractPrefixes` are the corrected
versions, minting through `Prefixes.FreshCounter`, which skips taken names. `ViziQuer.ConvertCorrected` is the conversion built on them, and
`ViziQuer.ConvertedPrefixesDistinct` proves its prefixes distinct.
`Prefixes.ExtractionAgreesWithoutMintedNames` and
`ViziQuer.ConvertAgreesWithoutMintedNames` show that the two agree whenever
no configured prefix has the form `nsK`.

## Left out

- Turtle parsing with n3 is left out, including the IRI clean-up and the skipping of bad lines; the store is given as a sequence of triples.
- The n3 store keeps each triple once and yields triples in its own index order. The model iterates its sequence in order and allows repeated triples.
- The OBIS converter looks triples up with `getQuads` keyed by plain strings. n3 would not match blank-node subjects or objects through those strings. The model matches every term by its value.
- Config and namespace-file reading, JSON writing, `fs.access`, `main`, command-line arguments, `process.exit` and logging are left out: they are I/O and process control.
- The schema name `path.basename(file, '.ttl')` is a parameter; path handling is file-system plumbing.
- `fetchEntityCount` is left out (HTTP, its 10 s timeout and the SPARQL text). It becomes the `CountService` parameter. A NaN the endpoint's JSON could produce is not modelled.
- The `Promise.race` against the five-minute timeout is left out: it is timing, and on timeout no schema is produced.
- Cardinalities are kept as `Card` values (an integer or NaN). Their rendering with `toString()` in the ViziQuer schema is left out.
- ViziQuer.ClassOf: an empty property list is written as `undefined` by the code and as an empty sequence in the model. The prefix scan treats both alike.
- `Object.entries` lists integer-like keys before all others. A configured prefix that is a decimal number would therefore move to the front; the model keeps insertion order.
- The empty `ClassPairs`, `Followers`, `OutgoingProperties` and `IncomingProperties` lists of OBIS records are modelled as empty sequences of strings. Their element type never appears.
- Obis.LocalName: its contract covers URIs without '#' and URIs with a '#' that do not end in one. The URI ending in '#' is covered by `Obis.TrailingHashFallsBack`, which states the result through `Text.AfterLast`.
- ViziQuer.ReferencedShapes: states which shapes are examined and that none repeats, not their order. The order only decides the order of `Attributes` and `Associations`, which are stated relative to it.
- `scripts/convert.py` is left out: it only posts a fixed SPARQL query and writes the answer to a file.

=== FILE: obis.dfy ===
/** `convertShaclToObis`: the DBLP classes and properties a SHACL store
    describes, written in the OBIS schema layout with fixed placeholder
    counts. Every lookup takes the first triple the store lists. */
module Obis {
  import opened Seqs
  import opened Text
  import opened Rdf
  import opened Prefixes
  import opened SchemaParameters

  const DBLP := "https://dblp.org/rdf/schema#"
  const ENDPOINT := "http://85.254.199.72:8890/sparql"

  datatype ObisClass = ObisClass(
    localName: string, namespace: string, fullName: string,
    instanceCount: int, propertiesInSchema: bool, superClasses: seq<string>,
    outgoingProperties: seq<string>, incomingProperties: seq<string>)

  datatype DataTypeEntry = DataTypeEntry(dataType: string, tripleCount: int)

  datatype SourceClassEntry = SourceClassEntry(
    classFullName: string, tripleCount: int, dataTripleCount: int,
    objectTripleCount: int, closedRange: bool, importanceIndex: int,
    minCardinality: Card, maxCardinality: Card)

  datatype TargetClassEntry = TargetClassEntry(
    classFullName: string, tripleCount: int, closedDomain: bool,
    importanceIndex: int, minInverseCardinality: int, maxInverseCardinality: int)

  datatype ObisProperty = ObisProperty(
    localName: string, namespace: string, fullName: string,
    maxCardinality: Card, maxInverseCardinality: int, tripleCount: int,
    dataTripleCount: int, objectTripleCount: int, closedDomain: bool,
    closedRange: bool, dataTypes: seq<DataTypeEntry>,
    sourceClasses: seq<SourceClassEntry>, targetClasses: seq<TargetClassEntry>,
    classPairs: seq<string>, followers: seq<string>,
    outgoingProperties: seq<string>, incomingProperties: seq<string>)

  datatype ObisSchema = ObisSchema(
    schemaName: string, classes: seq<ObisClass>, properties: seq<ObisProperty>,
    parameters: seq<Parameter>, prefixes: seq<PrefixEntry>)

  /** The five prefixes every OBIS schema declares. */
  function FixedPrefixes(): seq<PrefixEntry> {
    [ PrefixEntry("sh", SHACL), PrefixEntry("rdf", RDF), PrefixEntry("xsd", XSD),
      PrefixEntry("rdfs", RDFS), PrefixEntry("dblp", DBLP) ]
  }

  /* ---------------------------------------------------------------- */
  /* Names                                                             */

  /** `uri.split('#').pop() || uri.split('/').pop()`. */
  function LocalName(uri: string): (r: string)
    ensures '#' in uri && uri[|uri| - 1] != '#' ==> '#' !in r && |r| < |uri| && uri == uri[..|uri| - |r|] + r
                                                     && uri[|uri| - |r| - 1] == '#'
    ensures '#' !in uri ==> r == uri
  {
    var afterHash := AfterLast(uri, '#');
    AfterLastEmpty(uri, '#');
    if afterHash != "" then afterHash else AfterLast(uri, '/')
  }

  /** A URI that ends with '#' has nothing after its last '#', so its local
      name is what follows the last '/' (the whole URI when there is none). */
  lemma TrailingHashFallsBack(uri: string)
    requires |uri| > 0 && uri[|uri| - 1] == '#'
    ensures LocalName(uri) == AfterLast(uri, '/')
  {
    AfterLastEmpty(uri, '#');
  }

  /** `uri.substring(0, uri.lastIndexOf('#') + 1)`: everything up to and
      including the last '#', or "" when there is none. */
  function NamespacePart(uri: string): (r: string)
    ensures |r| <= |uri| && r == uri[..|r|]
    ensures '#' !in uri ==> r == ""
    ensures '#' in uri ==> |r| > 0 && r[|r| - 1] == '#' && '#' !in uri[|r|..]
  {
    var k := LastIndexOf(uri, '#');
    assert '#' in uri ==> k >= 0 by {
      if '#' in uri {
        var i :| 0 <= i < |uri| && uri[i] == '#';
      }
    }
    uri[..k + 1]
  }

  /** Namespace and local name put back together give a URI that has a
      '#' and does not end with one. */
  lemma {:induction false} NamesRoundTrip(uri: string)
    requires '#' in uri
    ensures uri[|uri| - 1] != '#' ==> NamespacePart(uri) + LocalName(uri) == uri
  {
    if uri[|uri| - 1] != '#' {
      RoundTripCut(uri);
    }
  }

  lemma {:induction false} RoundTripCut(uri: string)
    requires '#' in uri && uri[|uri| - 1] != '#'
    ensures NamespacePart(uri) + LocalName(uri) == uri
  {
    var k := LastIndexOf(uri, '#');
    assert AfterLast(uri, '#') == uri[k + 1..];
    assert AfterLast(uri, '#') != "";
    assert uri == uri[..k + 1] + uri[k + 1..];
  }

  /** How the converter splits a DBLP name: the namespace runs up to and
      including the last '#', the local name is what `LocalName` gives, and
      the two put back together give the name unless it ends with '#'. */
  predicate SplitAtHash(fullName: string, namespace: string, localName: string) {
    && namespace == NamespacePart(fullName)
    && localName == LocalName(fullName)
    && (|fullName| > 0 && fullName[|fullName| - 1] != '#' ==> namespace + localName == fullName)
  }

  /** A DBLP URI has a '#', so the converter's split of it is cut at its
      last '#' and its namespace starts with the DBLP namespace. */
  lemma {:induction false} DblpSplit(uri: string)
    requires StartsWith(uri, DBLP)
    ensures StartsWith(NamespacePart(uri), DBLP)
    ensures SplitAtHash(uri, NamespacePart(uri), LocalName(uri))
  {
    assert '#' in uri by { assert uri[|DBLP| - 1] == DBLP[|DBLP| - 1]; }
    DblpNamespace(uri);
    NamesRoundTrip(uri);
  }

  /** A URI in the DBLP namespace is never rdf:type, so the converter's
      extra test against rdf:type never rejects a property. */
  lemma {:induction false} DblpExcludesRdfType(uri: string)
    ensures StartsWith(uri, DBLP) ==> uri != RDF_TYPE
  {
    if StartsWith(uri, DBLP) {
      assert uri[4] == DBLP[4] == 's';
      assert RDF_TYPE[4] == ':';
    }
  }

  /* ---------------------------------------------------------------- */
  /* Classes                                                           */

  /** `store.getQuads(null, rdf:type, sh:NodeShape)`: node shape subjects in
      store order, once per typing triple. */
  function NodeShapeList(store: Store): (r: seq<string>)
    ensures forall s :: s in r <==> Holds(store, s, RDF_TYPE, SH_NODE_SHAPE)
    ensures |r| == Produced(store, SubjectOf(RDF_TYPE, SH_NODE_SHAPE))
    ensures forall i :: 0 <= i < |store| && Points(store[i], RDF_TYPE, SH_NODE_SHAPE) ==>
              Produced(store[..i], SubjectOf(RDF_TYPE, SH_NODE_SHAPE)) < |r|
              && r[Produced(store[..i], SubjectOf(RDF_TYPE, SH_NODE_SHAPE))] == store[i].subject
  {
    SubjectsInOrder(store, RDF_TYPE, SH_NODE_SHAPE);
    Subjects(store, RDF_TYPE, SH_NODE_SHAPE)
  }

  /** What the class loop makes of one node shape. */
  function ClassOfShape(store: Store): string -> Option<ObisClass> {
    s => ClassFor(store, s)
  }

  /** The class a node shape contributes: the first target class, when it
      is in the DBLP namespace. */
  function ClassFor(store: Store, shape: string): (r: Option<ObisClass>)
    ensures r.Some? <==> First(store, shape, SH_TARGET_CLASS).Some?
                         && StartsWith(First(store, shape, SH_TARGET_CLASS).value.value, DBLP)
    ensures r.Some? ==> && r.value.fullName == First(store, shape, SH_TARGET_CLASS).value.value
                        && StartsWith(r.value.fullName, DBLP)
                        && StartsWith(r.value.namespace, DBLP)
                        && SplitAtHash(r.value.fullName, r.value.namespace, r.value.localName)
    ensures r.Some? ==> r.value.instanceCount == 1 && r.value.propertiesInSchema
                        && r.value.superClasses == [RDFS_RESOURCE]
                        && r.value.outgoingProperties == [] && r.value.incomingProperties == []
  {
    match First(store, shape, SH_TARGET_CLASS)
    case None => None
    case Some(t) =>
      var uri := t.value;
      if !StartsWith(uri, DBLP) then None
      else
        DblpSplit(uri);
        Some(ObisClass(LocalName(uri), NamespacePart(uri), uri, 1, true, [RDFS_RESOURCE], [], []))
  }

  /** The namespace of any DBLP URI starts with the DBLP namespace. */
  lemma {:induction false} DblpNamespace(uri: string)
    requires StartsWith(uri, DBLP)
    ensures StartsWith(NamespacePart(uri), DBLP)
  {
    assert uri[|DBLP| - 1] == DBLP[|DBLP| - 1] == '#';
    var k := LastIndexOf(uri, '#');
    assert k >= |DBLP| - 1;
    assert NamespacePart(uri)[..|DBLP|] == uri[..|DBLP|];
  }

  /* ---------------------------------------------------------------- */
  /* Properties                                                        */

  /** The node shape lists `ps` under sh:property and has a target class. */
  predicate Sources(store: Store, shape: string, ps: string) {
    Holds(store, shape, SH_PROPERTY, ps) && First(store, shape, SH_TARGET_CLASS).Some?
  }

  /** The `sourceClass` search: the first target class of the first node
      shape, in `shapes` order, that lists `ps` and has a target class. */
  function SourceClassOf(store: Store, shapes: seq<string>, ps: string): (r: Option<string>)
    ensures r.None? <==> forall i :: 0 <= i < |shapes| ==> !Sources(store, shapes[i], ps)
    ensures r.Some? ==> exists i :: 0 <= i < |shapes| && Sources(store, shapes[i], ps)
                                    && r.value == First(store, shapes[i], SH_TARGET_CLASS).value.value
                                    && forall j :: 0 <= j < i ==> !Sources(store, shapes[j], ps)
    decreases |shapes|
  {
    if |shapes| == 0 then None
    else if Sources(store, shapes[0], ps) then Some(First(store, shapes[0], SH_TARGET_CLASS).value.value)
    else
      var rest := SourceClassOf(store, shapes[1..], ps);
      assert forall i :: 1 <= i < |shapes| ==> shapes[1..][i - 1] == shapes[i];
      rest
  }

  /** The counts and lists of a property agree with each other: one source
      class, a data type entry exactly when it has a datatype, a target class
      entry exactly when its range is closed, and counts that match the lists. */
  predicate WellFormed(p: ObisProperty) {
    && |p.sourceClasses| == 1 && |p.dataTypes| <= 1 && |p.targetClasses| <= 1
    && p.dataTripleCount == |p.dataTypes| && p.objectTripleCount == |p.targetClasses|
    && p.sourceClasses[0].dataTripleCount == p.dataTripleCount
    && p.sourceClasses[0].objectTripleCount == p.objectTripleCount
    && p.sourceClasses[0].maxCardinality == p.maxCardinality
    && (p.closedRange <==> |p.targetClasses| == 1)
  }

  /** The property a property shape contributes. A shape is skipped when it
      has no path, when its first path is outside the DBLP namespace, or when
      no node shape with a target class lists it (or the first one found has
      an empty target class). The minimum defaults to 0, the maximum to -1. */
  function PropertyFor(store: Store, shapes: seq<string>, ps: string): (r: Option<ObisProperty>)
    ensures r.Some? <==> && First(store, ps, SH_PATH).Some?
                         && StartsWith(First(store, ps, SH_PATH).value.value, DBLP)
                         && SourceClassOf(store, shapes, ps) !in {None, Some("")}
    ensures r.Some? ==> && WellFormed(r.value)
                        && r.value.fullName == First(store, ps, SH_PATH).value.value
                        && StartsWith(r.value.fullName, DBLP)
                        && StartsWith(r.value.namespace, DBLP)
                        && SplitAtHash(r.value.fullName, r.value.namespace, r.value.localName)
                        && r.value.sourceClasses[0].classFullName == SourceClassOf(store, shapes, ps).value
                        && FirstCard(store, ps, SH_MIN_COUNT, r.value.sourceClasses[0].minCardinality, Finite(0))
                        && FirstCard(store, ps, SH_MAX_COUNT, r.value.maxCardinality, Finite(-1))
    ensures r.Some? ==> (|r.value.dataTypes| == 1 <==> ValueOr(First(store, ps, SH_DATATYPE)) != "")
                        && (|r.value.dataTypes| == 1 ==> r.value.dataTypes[0].dataType == ValueOr(First(store, ps, SH_DATATYPE)))
    ensures r.Some? ==> (r.value.closedRange <==> ValueOr(First(store, ps, SH_CLASS)) != "")
                        && (r.value.closedRange ==> r.value.targetClasses[0].classFullName == ValueOr(First(store, ps, SH_CLASS)))
  {
    match First(store, ps, SH_PATH)
    case None => None
    case Some(pt) =>
      var uri := pt.value;
      DblpExcludesRdfType(uri);
      if !StartsWith(uri, DBLP) || uri == RDF_TYPE then None
      else
        match SourceClassOf(store, shapes, ps)
        case None => None
        case Some(source) =>
          if source == "" then None else Some(PropertyRecord(store, ps, uri, source))
  }

  /** What the property loop makes of one property shape. */
  function PropertyOfShape(store: Store, shapes: seq<string>): string -> Option<ObisProperty> {
    ps => PropertyFor(store, shapes, ps)
  }

  /** The record written for a kept property shape with path `uri` and
      source class `source`: every count is 1 or 0, the cardinalities come
      from sh:minCount and sh:maxCount, and the datatype and class lists hold
      at most the first sh:datatype and sh:class. */
  function PropertyRecord(store: Store, ps: string, uri: string, source: string): (p: ObisProperty)
    requires StartsWith(uri, DBLP)
    ensures WellFormed(p)
    ensures p.fullName == uri && StartsWith(p.namespace, DBLP)
    ensures SplitAtHash(uri, p.namespace, p.localName)
    ensures p.sourceClasses[0].classFullName == source
    ensures FirstCard(store, ps, SH_MIN_COUNT, p.sourceClasses[0].minCardinality, Finite(0))
    ensures FirstCard(store, ps, SH_MAX_COUNT, p.maxCardinality, Finite(-1))
    ensures (|p.dataTypes| == 1 <==> ValueOr(First(store, ps, SH_DATATYPE)) != "")
            && (|p.dataTypes| == 1 ==> p.dataTypes[0].dataType == ValueOr(First(store, ps, SH_DATATYPE)))
    ensures (p.closedRange <==> ValueOr(First(store, ps, SH_CLASS)) != "")
            && (p.closedRange ==> p.targetClasses[0].classFullName == ValueOr(First(store, ps, SH_CLASS)))
  {
    var minCount := CardOr(First(store, ps, SH_MIN_COUNT), Finite(0));
    var maxCount := CardOr(First(store, ps, SH_MAX_COUNT), Finite(-1));
    CardOrFirst(store, ps, SH_MIN_COUNT, Finite(0));
    CardOrFirst(store, ps, SH_MAX_COUNT, Finite(-1));
    DblpSplit(uri);
    var p := Record(LocalName(uri), NamespacePart(uri), uri, source, minCount, maxCount,
                    ValueOr(First(store, ps, SH_DATATYPE)), ValueOr(First(store, ps, SH_CLASS)));
    assert p.sourceClasses[0].minCardinality == minCount && p.maxCardinality == maxCount;
    p
  }

  /** The property record for values already read: a data type entry when
      there is a datatype, a target class entry and a closed range when there
      is a class, and one source class entry; every count is 1 or 0. */
  function Record(localName: string, namespace: string, uri: string, source: string,
                  minCount: Card, maxCount: Card, dataType: string, target: string): (p: ObisProperty)
    ensures WellFormed(p)
    ensures p.localName == localName && p.namespace == namespace && p.fullName == uri
    ensures p.sourceClasses[0].classFullName == source
    ensures p.sourceClasses[0].minCardinality == minCount && p.maxCardinality == maxCount
    ensures (|p.dataTypes| == 1 <==> dataType != "") && (|p.dataTypes| == 1 ==> p.dataTypes[0].dataType == dataType)
    ensures (p.closedRange <==> target != "") && (p.closedRange ==> p.targetClasses[0].classFullName == target)
  {
    var data := if dataType != "" then 1 else 0;
    var objectCount := if target != "" then 1 else 0;
    ObisProperty(
      localName, namespace, uri, maxCount, -1, 1, data, objectCount, true, target != "",
      if dataType != "" then [DataTypeEntry(dataType, 1)] else [],
      [SourceClassEntry(source, 1, data, objectCount, true, 1, minCount, maxCount)],
      if target != "" then [TargetClassEntry(target, 1, true, 1, 0, -1)] else [],
      [], [], [], [])
  }

  /* ---------------------------------------------------------------- */
  /* The schema                                                        */

  /** `obisSchema.Classes`: one class per node shape typing whose first
      target class is a DBLP class, in the order `getQuads` lists the
      typings; the entry of the shape at position i comes right after those
      of the shapes before it. */
  function Classes(store: Store): (r: seq<ObisClass>)
    ensures forall c :: c in r <==> exists s :: Holds(store, s, RDF_TYPE, SH_NODE_SHAPE) && ClassFor(store, s) == Some(c)
    ensures forall c :: c in r ==> StartsWith(c.fullName, DBLP) && StartsWith(c.namespace, DBLP)
    ensures var shapes := NodeShapeList(store);
            && |r| == Produced(shapes, ClassOfShape(store))
            && forall i :: 0 <= i < |shapes| && ClassFor(store, shapes[i]).Some? ==>
                 Produced(shapes[..i], ClassOfShape(store)) < |r|
                 && r[Produced(shapes[..i], ClassOfShape(store))] == ClassFor(store, shapes[i]).value
  {
    var shapes := NodeShapeList(store);
    ChooseMembers(shapes, ClassOfShape(store));
    ChooseInOrder(shapes, ClassOfShape(store));
    Choose(shapes, ClassOfShape(store))
  }

  /** `obisSchema.Properties`: one property per property shape typing that
      passes the path, namespace and source class tests, in the order
      `getQuads` lists the typings, placed as for `Classes`. */
  function Properties(store: Store): (r: seq<ObisProperty>)
    ensures forall p :: p in r <==>
              exists ps :: Holds(store, ps, RDF_TYPE, SH_PROPERTY_SHAPE) && PropertyFor(store, NodeShapeList(store), ps) == Some(p)
    ensures forall p :: p in r ==> StartsWith(p.fullName, DBLP) && WellFormed(p)
    ensures var shapes := NodeShapeList(store);
            var propertyShapes := Subjects(store, RDF_TYPE, SH_PROPERTY_SHAPE);
            && |r| == Produced(propertyShapes, PropertyOfShape(store, shapes))
            && forall i :: 0 <= i < |propertyShapes| && PropertyFor(store, shapes, propertyShapes[i]).Some? ==>
                 Produced(propertyShapes[..i], PropertyOfShape(store, shapes)) < |r|
                 && r[Produced(propertyShapes[..i], PropertyOfShape(store, shapes))]
                    == PropertyFor(store, shapes, propertyShapes[i]).value
  {
    var shapes := NodeShapeList(store);
    var propertyShapes := Subjects(store, RDF_TYPE, SH_PROPERTY_SHAPE);
    ChooseMembers(propertyShapes, PropertyOfShape(store, shapes));
    ChooseInOrder(propertyShapes, PropertyOfShape(store, shapes));
    Choose(propertyShapes, PropertyOfShape(store, shapes))
  }

  /** `convertShaclToObis` after parsing, for the schema name
      `path.basename(file, '.ttl')`: the fixed parameters and prefixes, the
      classes of the node shapes and the properties of the property shapes. */
  function Convert(store: Store, schemaName: string): (r: ObisSchema)
    ensures r.schemaName == schemaName && r.parameters == Parameters(ENDPOINT, schemaName)
    ensures r.prefixes == FixedPrefixes()
    ensures r.classes == Classes(store) && r.properties == Properties(store)
    ensures forall c :: c in r.classes <==> exists s :: Holds(store, s, RDF_TYPE, SH_NODE_SHAPE) && ClassFor(store, s) == Some(c)
    ensures forall p :: p in r.properties <==>
              exists ps :: Holds(store, ps, RDF_TYPE, SH_PROPERTY_SHAPE) && PropertyFor(store, NodeShapeList(store), ps) == Some(p)
    ensures forall c :: c in r.classes ==> StartsWith(c.fullName, DBLP) && StartsWith(c.namespace, DBLP)
    ensures forall p :: p in r.properties ==> StartsWith(p.fullName, DBLP) && WellFormed(p)
  {
    ObisSchema(schemaName, Classes(store), Properties(store), Parameters(ENDPOINT, schemaName), FixedPrefixes())
  }

}

=== FILE: parameters.dfy ===
/** The fixed `Parameters` list both converters put into their schema. */
module SchemaParameters {

  datatype Parameter = Parameter(name: string, value: string)

  /** The parameters naming the endpoint and graph, followed by the fixed
      flags that say how ViziQuer should read the schema. */
  function Parameters(endpoint: string, graph: string): seq<Parameter> {
    [ Parameter("endpointUrl", endpoint),
      Parameter("graphName", graph),
      Parameter("calculateSubClassRelations", "true"),
      Parameter("calculateDomainAndRangePairs", "true"),
      Parameter("calculateDataTypes", "true"),
      Parameter("calculateCardinalities", "propertyLevelAndClassContext"),
      Parameter("minimalAnalyzedClassSize", "0") ]
  }
}

=== FILE: prefixes.dfy ===
/** The namespace resolver of the ViziQuer converter: splitting a URI against
    the configured prefix table, collecting the namespaces of the emitted
    URIs, and assigning each of them a prefix (reused from the configuration,
    or minted as `ns1`, `ns2`, ...). */
module Prefixes {
  import opened Seqs
  import opened Text

  /** One `{ prefix, namespace }` entry of a prefix table. */
  datatype PrefixEntry = PrefixEntry(prefix: string, namespace: string)

  /** Where the key `p` sits in a table, or -1. */
  function PrefixPosition(table: seq<PrefixEntry>, p: string): (r: int)
    ensures -1 <= r < |table|
    ensures r >= 0 ==> table[r].prefix == p
    ensures r < 0 ==> forall i :: 0 <= i < |table| ==> table[i].prefix != p
  {
    if |table| == 0 then -1
    else if table[|table| - 1].prefix == p then |table| - 1
    else PrefixPosition(table[..|table| - 1], p)
  }

  /** `seed[j]` is the last entry of `seed` with its prefix. */
  ghost predicate LastForPrefix(seed: seq<PrefixEntry>, j: int) {
    0 <= j < |seed| && forall k :: j < k < |seed| ==> seed[k].prefix != seed[j].prefix
  }

  ghost predicate UniquePrefixes(table: seq<PrefixEntry>) {
    forall i, j :: 0 <= i < j < |table| ==> table[i].prefix != table[j].prefix
  }

  /** Every entry of `table` is the last entry of `seed` for its prefix. */
  ghost predicate LastEntriesOf(seed: seq<PrefixEntry>, table: seq<PrefixEntry>) {
    forall i :: 0 <= i < |table| ==> exists j :: LastForPrefix(seed, j) && seed[j] == table[i]
  }

  /** Every prefix of `seed` has an entry in `table`. */
  ghost predicate CoversPrefixes(seed: seq<PrefixEntry>, table: seq<PrefixEntry>) {
    forall j :: 0 <= j < |seed| ==> exists i :: 0 <= i < |table| && table[i].prefix == seed[j].prefix
  }

  /** The prefixes of a table, in table order. */
  function Keys(table: seq<PrefixEntry>): (r: seq<string>)
    ensures |r| == |table| && forall i :: 0 <= i < |table| ==> r[i] == table[i].prefix
  {
    seq(|table|, i requires 0 <= i < |table| => table[i].prefix)
  }

  /** The namespaces of a table, in table order. */
  function Namespaces(table: seq<PrefixEntry>): (r: seq<string>)
    ensures |r| == |table| && forall i :: 0 <= i < |table| ==> r[i] == table[i].namespace
  {
    seq(|table|, i requires 0 <= i < |table| => table[i].namespace)
  }

  /** `obj[e.prefix] = e.namespace` on an object read as its entry list. */
  function Put(obj: seq<PrefixEntry>, e: PrefixEntry): seq<PrefixEntry> {
    var k := PrefixPosition(obj, e.prefix);
    if k >= 0 then obj[k := e] else obj + [e]
  }

  /** `Object.fromEntries(seed.map(e => [e.prefix, e.namespace]))` read back
      with `Object.entries`: one entry per distinct prefix, in order of first
      occurrence, holding the namespace of the LAST seed entry with that prefix. */
  function PrefixObject(seed: seq<PrefixEntry>): (r: seq<PrefixEntry>)
    ensures UniquePrefixes(r)
    ensures LastEntriesOf(seed, r)
    ensures CoversPrefixes(seed, r)
    ensures Keys(r) == Distinct(Keys(seed))
  {
    if |seed| == 0 then []
    else
      var obj := PrefixObject(seed[..|seed| - 1]);
      PutKeepsTable(seed, obj);
      PutKeepsOrder(seed, obj);
      Put(obj, seed[|seed| - 1])
  }

  /** The step of `PrefixObject` for the key order: a new prefix goes to the
      end, and a prefix already present keeps its place. */
  lemma {:induction false} PutKeepsOrder(seed: seq<PrefixEntry>, obj: seq<PrefixEntry>)
    requires |seed| > 0
    requires Keys(obj) == Distinct(Keys(seed[..|seed| - 1]))
    ensures Keys(Put(obj, seed[|seed| - 1])) == Distinct(Keys(seed))
  {
    var n := |seed| - 1;
    var e := seed[n];
    var ks := Keys(seed[..n]);
    assert Keys(seed) == ks + [e.prefix] by {
      KeysSnoc(seed[..n], e);
      assert seed[..n] + [e] == seed;
    }
    DistinctSnoc(ks, e.prefix);
    var k := PrefixPosition(obj, e.prefix);
    if k >= 0 {
      assert e.prefix in Distinct(ks) by { assert Keys(obj)[k] == e.prefix; }
      assert Put(obj, e) == obj[k := e];
      KeysReplace(obj, k, e);
    } else {
      assert e.prefix !in Distinct(ks);
      assert Put(obj, e) == obj + [e];
      KeysSnoc(obj, e);
    }
  }

  lemma {:induction false} KeysSnoc(table: seq<PrefixEntry>, e: PrefixEntry)
    ensures Keys(table + [e]) == Keys(table) + [e.prefix]
  {
  }

  lemma {:induction false} KeysReplace(table: seq<PrefixEntry>, k: nat, e: PrefixEntry)
    requires k < |table| && table[k].prefix == e.prefix
    ensures Keys(table[k := e]) == Keys(table)
  {
  }


  /** The step of `PrefixObject`: putting the last seed entry. */
  lemma {:induction false} PutKeepsTable(seed: seq<PrefixEntry>, obj: seq<PrefixEntry>)
    requires |seed| > 0
    requires UniquePrefixes(obj)
    requires LastEntriesOf(seed[..|seed| - 1], obj)
    requires CoversPrefixes(seed[..|seed| - 1], obj)
    ensures UniquePrefixes(Put(obj, seed[|seed| - 1]))
    ensures LastEntriesOf(seed, Put(obj, seed[|seed| - 1]))
    ensures CoversPrefixes(seed, Put(obj, seed[|seed| - 1]))
  {
    PutShape(obj, seed[|seed| - 1]);
    PutKeepsLastEntries(seed, obj);
    PutKeepsCover(seed, obj);
  }

  lemma {:induction false} PutKeepsLastEntries(seed: seq<PrefixEntry>, obj: seq<PrefixEntry>)
    requires |seed| > 0
    requires UniquePrefixes(obj)
    requires LastEntriesOf(seed[..|seed| - 1], obj)
    ensures LastEntriesOf(seed, Put(obj, seed[|seed| - 1]))
  {
    var n := |seed| - 1;
    var e := seed[n];
    var k := PrefixPosition(obj, e.prefix);
    var r := Put(obj, e);
    PutShape(obj, e);
    assert LastForPrefix(seed, n);
    forall i | 0 <= i < |r|
      ensures exists j :: LastForPrefix(seed, j) && seed[j] == r[i]
    {
      if i == k || i == |obj| {
        assert r[i] == seed[n];
      } else {
        assert r[i] == obj[i];
        var j :| LastForPrefix(seed[..n], j) && seed[..n][j] == obj[i];
        assert seed[j] == obj[i];
        assert LastForPrefix(seed, j);
      }
    }
  }

  lemma {:induction false} PutKeepsCover(seed: seq<PrefixEntry>, obj: seq<PrefixEntry>)
    requires |seed| > 0
    requires UniquePrefixes(obj)
    requires CoversPrefixes(seed[..|seed| - 1], obj)
    ensures CoversPrefixes(seed, Put(obj, seed[|seed| - 1]))
  {
    var n := |seed| - 1;
    var e := seed[n];
    var k := PrefixPosition(obj, e.prefix);
    var r := Put(obj, e);
    PutShape(obj, e);
    forall j | 0 <= j < |seed|
      ensures exists i :: 0 <= i < |r| && r[i].prefix == seed[j].prefix
    {
      if seed[j].prefix != e.prefix {
        assert seed[..n][j] == seed[j];
        var i :| 0 <= i < |obj| && obj[i].prefix == seed[..n][j].prefix;
        assert r[i] == obj[i];
      } else if k >= 0 {
        assert r[k].prefix == seed[j].prefix;
      } else {
        assert r[|obj|].prefix == seed[j].prefix;
      }
    }
  }

  /** What `Put` does to the entry list: it replaces the entry with the same
      prefix, or appends, and leaves the other entries alone. */
  lemma {:induction false} PutShape(obj: seq<PrefixEntry>, e: PrefixEntry)
    requires UniquePrefixes(obj)
    ensures var k := PrefixPosition(obj, e.prefix);
            var r := Put(obj, e);
            && UniquePrefixes(r)
            && |r| == (if k >= 0 then |obj| else |obj| + 1)
            && (forall i :: 0 <= i < |obj| && i != k ==> r[i] == obj[i] && obj[i].prefix != e.prefix)
            && (k >= 0 ==> r[k] == e)
            && (k < 0 ==> r[|obj|] == e)
  {
  }

  /** The result of `getLocalNameAndPrefix`; `prefix` is None for JavaScript's null. */
  datatype NameSplit = NameSplit(prefix: Option<string>, localName: string)

  /** `getLocalNameAndPrefix(uri)` over the table `Object.entries(prefixMap)`:
      the first entry whose namespace starts `uri` gives the prefix, and the
      rest of `uri` is the local name. */
  function LocalNameAndPrefix(table: seq<PrefixEntry>, uri: string): (r: NameSplit)
    ensures r.prefix.None? ==> r.localName == uri && forall i :: 0 <= i < |table| ==> !StartsWith(uri, table[i].namespace)
    ensures r.prefix.Some? ==> exists i :: 0 <= i < |table| && table[i].prefix == r.prefix.value
                                  && table[i].namespace + r.localName == uri
                                  && forall j :: 0 <= j < i ==> !StartsWith(uri, table[j].namespace)
    ensures forall i :: FirstMatch(table, uri, i) ==>
              r == NameSplit(Some(table[i].prefix), uri[|table[i].namespace|..])
  {
    SplitFrom(table, uri, 0)
  }

  /** `table[i]` is the first entry whose namespace starts `uri`. */
  predicate FirstMatch(table: seq<PrefixEntry>, uri: string, i: int) {
    0 <= i < |table| && StartsWith(uri, table[i].namespace)
    && forall j :: 0 <= j < i ==> !StartsWith(uri, table[j].namespace)
  }

  function SplitFrom(table: seq<PrefixEntry>, uri: string, k: nat): (r: NameSplit)
    requires k <= |table|
    ensures r.prefix.None? ==> r.localName == uri && forall i :: k <= i < |table| ==> !StartsWith(uri, table[i].namespace)
    ensures r.prefix.Some? ==> exists i :: k <= i < |table| && table[i].prefix == r.prefix.value
                                  && table[i].namespace + r.localName == uri
                                  && forall j :: k <= j < i ==> !StartsWith(uri, table[j].namespace)
    ensures forall i :: k <= i < |table| && StartsWith(uri, table[i].namespace)
                        && (forall j :: k <= j < i ==> !StartsWith(uri, table[j].namespace)) ==>
              r == NameSplit(Some(table[i].prefix), uri[|table[i].namespace|..])
    decreases |table| - k
  {
    if k == |table| then NameSplit(None, uri)
    else
      var ns := table[k].namespace;
      if StartsWith(uri, ns) then
        assert ns + uri[|ns|..] == uri by { assert uri == uri[..|ns|] + uri[|ns|..]; }
        NameSplit(Some(table[k].prefix), uri[|ns|..])
      else SplitFrom(table, uri, k + 1)
  }

  /** `p || undefined`: an empty prefix counts as none. */
  function NonEmpty(p: Option<string>): Option<string> {
    if p.Some? && p.value != "" then p else None
  }

  /** `prefix ? prefix + ':' + localName : uri`, how the converter writes
      superclasses, source classes and class pairs. */
  function Qualified(table: seq<PrefixEntry>, uri: string): (r: string)
    ensures r == uri || exists i :: 0 <= i < |table| && table[i].prefix != ""
                                     && exists local :: r == table[i].prefix + ":" + local && uri == table[i].namespace + local
    ensures forall i :: FirstMatch(table, uri, i) ==>
              r == if table[i].prefix != "" then table[i].prefix + ":" + uri[|table[i].namespace|..] else uri
    ensures (forall i :: 0 <= i < |table| ==> !StartsWith(uri, table[i].namespace)) ==> r == uri
  {
    var sp := LocalNameAndPrefix(table, uri);
    if sp.prefix.Some? && sp.prefix.value != "" then sp.prefix.value + ":" + sp.localName else uri
  }

  predicate IsHttp(uri: string) {
    StartsWith(uri, "http://") || StartsWith(uri, "https://")
  }

  /** `collectNamespaces(uri)`: an http(s) URI contributes itself cut after
      its last '#' or '/'; any other string contributes nothing. */
  function NamespaceOf(uri: string): (r: Option<string>)
    ensures r.Some? <==> IsHttp(uri)
    ensures r.Some? ==> && 0 < |r.value| <= |uri| && uri[..|r.value|] == r.value
                        && r.value[|r.value| - 1] in "#/"
                        && forall i :: |r.value| <= i < |uri| ==> uri[i] != '#' && uri[i] != '/'
  {
    if IsHttp(uri) then
      var hash := LastIndexOf(uri, '#');
      var slash := LastIndexOf(uri, '/');
      var k := if hash > slash then hash else slash;
      assert slash >= 6 by {
        if StartsWith(uri, "http://") { assert uri[6] == "http://"[6]; }
        else { assert uri[7] == "https://"[7]; }
      }
      if k > 0 then Some(uri[..k + 1]) else None
    else None
  }

  /** `s.includes(':') ? s.split(':')[1] : s`, applied to source classes and
      class pairs before their namespaces are collected. The result never
      contains ':', so it is never an http(s) URI and contributes nothing. */
  function ColonPart(s: string): (r: string)
    ensures ':' !in r
    ensures NamespaceOf(r) == None
  {
    var r := if ':' in s then SecondField(s, ':') else s;
    HttpHasColon(r);
    r
  }

  lemma {:induction false} HttpHasColon(uri: string)
    ensures IsHttp(uri) ==> ':' in uri
  {
    if StartsWith(uri, "http://") {
      assert uri[4] == "http://"[4];
      assert uri[4] in uri;
    } else if StartsWith(uri, "https://") {
      assert uri[5] == "https://"[5];
      assert uri[5] in uri;
    }
  }

  /** The `usedNamespaces` set of `extractPrefixes`, in insertion order. */
  function UsedNamespaces(uris: seq<string>): (r: seq<string>)
    ensures NoDuplicates(r)
    ensures forall ns :: ns in r <==> exists i :: 0 <= i < |uris| && NamespaceOf(uris[i]) == Some(ns)
    ensures InFirstOccurrenceOrder(Choose(uris, NamespaceOf), r)
  {
    Distinct(Choose(uris, NamespaceOf))
  }

  /** Where the last seed entry for the namespace `ns` sits, or -1. */
  function NamespacePosition(seed: seq<PrefixEntry>, ns: string): (r: int)
    ensures -1 <= r < |seed|
    ensures r >= 0 ==> seed[r].namespace == ns
    ensures forall j :: r < j < |seed| ==> seed[j].namespace != ns
  {
    if |seed| == 0 then -1
    else if seed[|seed| - 1].namespace == ns then |seed| - 1
    else NamespacePosition(seed[..|seed| - 1], ns)
  }

  /** `new Map(seed.map(e => [e.namespace, e.prefix])).get(ns)`: the prefix
      of the last seed entry for `ns`. */
  function SeededPrefix(seed: seq<PrefixEntry>, ns: string): (r: Option<string>)
    ensures r.None? <==> forall i :: 0 <= i < |seed| ==> seed[i].namespace != ns
    ensures r.Some? ==> exists i :: 0 <= i < |seed| && seed[i] == PrefixEntry(r.value, ns)
                                     && forall j :: i < j < |seed| ==> seed[j].namespace != ns
  {
    var k := NamespacePosition(seed, ns);
    if k < 0 then None else Some(seed[k].prefix)
  }

  /** The seeded prefix a namespace keeps: `if (!prefix)` also mints a
      prefix when the configured one is "". */
  function Seeded(seed: seq<PrefixEntry>, ns: string): Option<string> {
    NonEmpty(SeededPrefix(seed, ns))
  }

  /** How many of `used` have no seeded prefix. */
  function Unseeded(seed: seq<PrefixEntry>, used: seq<string>): nat {
    if |used| == 0 then 0
    else (if Seeded(seed, used[0]).None? then 1 else 0) + Unseeded(seed, used[1..])
  }

  /** The prefix minted from counter value `k`: `ns${k}`. */
  function AutoPrefix(k: nat): string {
    "ns" + NatToString(k)
  }

  lemma {:induction false} AutoPrefixInjective(a: nat, b: nat)
    requires AutoPrefix(a) == AutoPrefix(b)
    ensures a == b
  {
    assert AutoPrefix(a)[2..] == NatToString(a);
    assert AutoPrefix(b)[2..] == NatToString(b);
    NatToStringInjective(a, b);
  }

  /** `r` is the as-written assignment for `used` with the counter at
      `counter`: one entry per used namespace, in order; a namespace with a
      non-empty configured prefix keeps it, and every other one gets `ns`
      followed by the counter plus the number of earlier such namespaces. */
  ghost predicate WrittenAssignment(used: seq<string>, seed: seq<PrefixEntry>, counter: nat, r: seq<PrefixEntry>) {
    && |r| == |used|
    && (forall i :: 0 <= i < |used| ==> r[i].namespace == used[i])
    && (forall i :: 0 <= i < |used| && Seeded(seed, used[i]).Some? ==> r[i].prefix == Seeded(seed, used[i]).value)
    && (forall i :: 0 <= i < |used| && Seeded(seed, used[i]).None? ==>
          r[i].prefix == AutoPrefix(counter + Unseeded(seed, used[..i])))
  }

  /** The loop over `usedNamespaces` in `extractPrefixes` as written: a seeded
      namespace keeps its prefix, every other one gets `ns${counter++}`. */
  function AssignAsWritten(used: seq<string>, seed: seq<PrefixEntry>, counter: nat): (r: seq<PrefixEntry>)
    ensures WrittenAssignment(used, seed, counter, r)
  {
    if |used| == 0 then []
    else
      var ns := used[0];
      var minted := Seeded(seed, ns).None?;
      var rest := AssignAsWritten(used[1..], seed, if minted then counter + 1 else counter);
      var head := if minted then PrefixEntry(AutoPrefix(counter), ns) else PrefixEntry(Seeded(seed, ns).value, ns);
      WrittenStep(used, seed, counter, head, rest);
      [head] + rest
  }

  /** The step of `AssignAsWritten`: the head namespace's entry in front of
      the assignment of the rest, with the counter advanced when it minted. */
  lemma {:induction false} WrittenStep(used: seq<string>, seed: seq<PrefixEntry>, counter: nat, head: PrefixEntry, rest: seq<PrefixEntry>)
    requires |used| > 0
    requires head == if Seeded(seed, used[0]).None? then PrefixEntry(AutoPrefix(counter), used[0])
                     else PrefixEntry(Seeded(seed, used[0]).value, used[0])
    requires WrittenAssignment(used[1..], seed, if Seeded(seed, used[0]).None? then counter + 1 else counter, rest)
    ensures WrittenAssignment(used, seed, counter, [head] + rest)
  {
    UnseededSteps(seed, used);
    var r := [head] + rest;
    assert used[..0] == [];
    forall i | 1 <= i < |used| ensures r[i] == rest[i - 1] && used[1..][i - 1] == used[i] { }
  }

  /** Counting any non-empty prefix of `used` starts with its head. */
  lemma {:induction false} UnseededSteps(seed: seq<PrefixEntry>, used: seq<string>)
    requires |used| > 0
    ensures forall i :: 1 <= i <= |used| ==>
              Unseeded(seed, used[..i]) == (if Seeded(seed, used[0]).None? then 1 else 0) + Unseeded(seed, used[1..][..i - 1])
    ensures forall i :: 1 <= i < |used| ==> used[1..][i - 1] == used[i]
  {
    forall i | 1 <= i <= |used|
      ensures Unseeded(seed, used[..i]) == (if Seeded(seed, used[0]).None? then 1 else 0) + Unseeded(seed, used[1..][..i - 1])
    {
      UnseededStep(seed, used, i);
    }
  }

  /** Counting a prefix of `used` starts with its head. */
  lemma {:induction false} UnseededStep(seed: seq<PrefixEntry>, used: seq<string>, i: nat)
    requires 1 <= i <= |used|
    ensures Unseeded(seed, used[..i]) == (if Seeded(seed, used[0]).None? then 1 else 0) + Unseeded(seed, used[1..][..i - 1])
  {
    assert used[..i][0] == used[0];
    assert used[..i][1..] == used[1..][..i - 1];
  }

  /** `extractPrefixes` as written: one entry per used namespace, in order
      of first encounter, keeping the non-empty configured prefixes and
      numbering the other namespaces `ns1`, `ns2`, ... in that order. */
  function ExtractPrefixesAsWritten(seed: seq<PrefixEntry>, uris: seq<string>): (r: seq<PrefixEntry>)
    ensures Namespaces(r) == UsedNamespaces(uris)
    ensures forall i :: 0 <= i < |r| && Seeded(seed, r[i].namespace).Some? ==> r[i].prefix == Seeded(seed, r[i].namespace).value
    ensures WrittenAssignment(UsedNamespaces(uris), seed, 1, r)
  {
    var used := UsedNamespaces(uris);
    var r := AssignAsWritten(used, seed, 1);
    assert Namespaces(r) == used;
    r
  }

  /** A seeded prefix `ns1` and a namespace without one: the as-written
      assignment gives both namespaces the prefix `ns1`. */
  lemma {:induction false} AsWrittenRepeatsAPrefix()
    ensures var r := AssignAsWritten(["http://a/", "http://b/"], [PrefixEntry("ns1", "http://a/")], 1);
            |r| == 2 && r[0].prefix == r[1].prefix == "ns1" && r[0].namespace != r[1].namespace
  {
    var seed := [PrefixEntry("ns1", "http://a/")];
    assert Seeded(seed, "http://a/") == Some("ns1");
    assert Seeded(seed, "http://b/") == None;
    var r := AssignAsWritten(["http://a/", "http://b/"], seed, 1);
    assert ["http://a/", "http://b/"][..1] == ["http://a/"];
    assert Unseeded(seed, ["http://a/"]) == 0;
    assert r[1].prefix == AutoPrefix(1);
    assert NatToString(1) == "1";
  }

  /** The set of all configured prefixes. */
  function SeedPrefixes(seed: seq<PrefixEntry>): set<string> {
    set i | 0 <= i < |seed| :: seed[i].prefix
  }

  /** The first counter value from `k` on whose minted prefix is not taken. */
  function FreshCounter(taken: set<string>, k: nat): (r: nat)
    ensures r >= k && AutoPrefix(r) !in taken
    ensures forall j :: k <= j < r ==> AutoPrefix(j) in taken
    decreases |taken|
  {
    if AutoPrefix(k) in taken then
      var r := FreshCounter(taken - {AutoPrefix(k)}, k + 1);
      assert AutoPrefix(r) != AutoPrefix(k) by {
        if AutoPrefix(r) == AutoPrefix(k) { AutoPrefixInjective(r, k); }
      }
      r
    else k
  }

  /** The assignment with the collision check it evidently lacks: a minted
      prefix skips every name that is configured or already minted. */
  function AssignDistinct(used: seq<string>, seed: seq<PrefixEntry>, taken: set<string>, counter: nat): (r: seq<PrefixEntry>)
    ensures |r| == |used|
    ensures forall i :: 0 <= i < |used| ==> r[i].namespace == used[i]
    ensures forall i :: 0 <= i < |used| && Seeded(seed, used[i]).Some? ==> r[i].prefix == Seeded(seed, used[i]).value
    ensures forall i :: 0 <= i < |used| && Seeded(seed, used[i]).None? ==> r[i].prefix !in taken
    ensures forall i, j :: 0 <= i < j < |used| && Seeded(seed, used[i]).None? && Seeded(seed, used[j]).None? ==>
              r[i].prefix != r[j].prefix
  {
    if |used| == 0 then []
    else
      var ns := used[0];
      match Seeded(seed, ns)
      case Some(p) => [PrefixEntry(p, ns)] + AssignDistinct(used[1..], seed, taken, counter)
      case None =>
        var k := FreshCounter(taken, counter);
        [PrefixEntry(AutoPrefix(k), ns)] + AssignDistinct(used[1..], seed, taken + {AutoPrefix(k)}, k + 1)
  }

  /** `extractPrefixes` with minted prefixes kept clear of the configured
      ones: one entry per namespace of an emitted URI, in order of first
      encounter, and no entry for any other namespace. */
  function ExtractPrefixes(seed: seq<PrefixEntry>, uris: seq<string>): (r: seq<PrefixEntry>)
    ensures Namespaces(r) == UsedNamespaces(uris)
    ensures forall i, j :: 0 <= i < j < |r| ==> r[i].namespace != r[j].namespace
    ensures forall k :: 0 <= k < |uris| && NamespaceOf(uris[k]).Some? ==>
              exists i :: 0 <= i < |r| && r[i].namespace == NamespaceOf(uris[k]).value
    ensures forall i :: 0 <= i < |r| ==> exists k :: 0 <= k < |uris| && NamespaceOf(uris[k]) == Some(r[i].namespace)
    ensures forall i :: 0 <= i < |r| && Seeded(seed, r[i].namespace).Some? ==> r[i].prefix == Seeded(seed, r[i].namespace).value
    ensures forall i :: 0 <= i < |r| && Seeded(seed, r[i].namespace).None? ==> r[i].prefix !in SeedPrefixes(seed)
  {
    var used := UsedNamespaces(uris);
    var r := AssignDistinct(used, seed, SeedPrefixes(seed), 1);
    AssignedNamespaces(uris, used, r);
    r
  }

  lemma {:induction false} AssignedNamespaces(uris: seq<string>, used: seq<string>, r: seq<PrefixEntry>)
    requires used == UsedNamespaces(uris)
    requires |r| == |used| && forall i :: 0 <= i < |used| ==> r[i].namespace == used[i]
    ensures Namespaces(r) == used
    ensures forall i, j :: 0 <= i < j < |r| ==> r[i].namespace != r[j].namespace
    ensures forall k :: 0 <= k < |uris| && NamespaceOf(uris[k]).Some? ==>
              exists i :: 0 <= i < |r| && r[i].namespace == NamespaceOf(uris[k]).value
    ensures forall i :: 0 <= i < |r| ==> exists k :: 0 <= k < |uris| && NamespaceOf(uris[k]) == Some(r[i].namespace)
  {
    forall k | 0 <= k < |uris| && NamespaceOf(uris[k]).Some?
      ensures exists i :: 0 <= i < |r| && r[i].namespace == NamespaceOf(uris[k]).value
    {
      var ns := NamespaceOf(uris[k]).value;
      assert ns in used;
      var i :| 0 <= i < |used| && used[i] == ns;
      assert r[i].namespace == ns;
    }
    forall i | 0 <= i < |r|
      ensures exists k :: 0 <= k < |uris| && NamespaceOf(uris[k]) == Some(r[i].namespace)
    {
      assert used[i] in used;
    }
  }

  /** A configuration that never gives two namespaces the same prefix. */
  ghost predicate InjectiveSeed(seed: seq<PrefixEntry>) {
    forall i, j :: 0 <= i < |seed| && 0 <= j < |seed| && seed[i].namespace != seed[j].namespace ==>
      seed[i].prefix != seed[j].prefix
  }

  /** A kept prefix is a configured one. */
  lemma {:induction false} SeededIsConfigured(seed: seq<PrefixEntry>, ns: string)
    requires Seeded(seed, ns).Some?
    ensures Seeded(seed, ns).value in SeedPrefixes(seed)
    ensures exists i :: 0 <= i < |seed| && seed[i] == PrefixEntry(Seeded(seed, ns).value, ns)
  {
    var i :| 0 <= i < |seed| && seed[i] == PrefixEntry(SeededPrefix(seed, ns).value, ns);
    assert seed[i].prefix in SeedPrefixes(seed);
  }

  /** Under an injective configuration, distinct namespaces keep distinct prefixes. */
  lemma {:induction false} SeededDiffer(seed: seq<PrefixEntry>, ns1: string, ns2: string)
    requires InjectiveSeed(seed)
    requires ns1 != ns2 && Seeded(seed, ns1).Some? && Seeded(seed, ns2).Some?
    ensures Seeded(seed, ns1).value != Seeded(seed, ns2).value
  {
    SeededIsConfigured(seed, ns1);
    SeededIsConfigured(seed, ns2);
    var x :| 0 <= x < |seed| && seed[x] == PrefixEntry(Seeded(seed, ns1).value, ns1);
    var y :| 0 <= y < |seed| && seed[y] == PrefixEntry(Seeded(seed, ns2).value, ns2);
    assert seed[x].namespace != seed[y].namespace;
  }

  /** With a configuration that maps distinct namespaces to distinct
      prefixes, the corrected table never repeats a prefix. */
  lemma {:induction false} ExtractedPrefixesAreDistinct(seed: seq<PrefixEntry>, uris: seq<string>)
    requires InjectiveSeed(seed)
    ensures var r := ExtractPrefixes(seed, uris);
            forall i, j :: 0 <= i < j < |r| ==> r[i].prefix != r[j].prefix
  {
    var used := UsedNamespaces(uris);
    assert NoDuplicates(used);
    AssignedPrefixesAreDistinct(used, seed, SeedPrefixes(seed), 1);
    assert ExtractPrefixes(seed, uris) == AssignDistinct(used, seed, SeedPrefixes(seed), 1);
  }

  lemma {:induction false} AssignedPrefixesAreDistinct(used: seq<string>, seed: seq<PrefixEntry>, taken: set<string>, counter: nat)
    requires InjectiveSeed(seed)
    requires NoDuplicates(used)
    requires SeedPrefixes(seed) <= taken
    ensures var r := AssignDistinct(used, seed, taken, counter);
            forall i, j :: 0 <= i < j < |r| ==> r[i].prefix != r[j].prefix
  {
    var r := AssignDistinct(used, seed, taken, counter);
    forall i, j | 0 <= i < j < |r| ensures r[i].prefix != r[j].prefix {
      PrefixPairDiffers(used, seed, taken, r, i, j);
    }
  }

  lemma {:induction false} PrefixPairDiffers(used: seq<string>, seed: seq<PrefixEntry>, taken: set<string>, r: seq<PrefixEntry>, i: nat, j: nat)
    requires InjectiveSeed(seed)
    requires i < j < |used| == |r| && used[i] != used[j]
    requires SeedPrefixes(seed) <= taken
    requires Seeded(seed, used[i]).Some? ==> r[i].prefix == Seeded(seed, used[i]).value
    requires Seeded(seed, used[j]).Some? ==> r[j].prefix == Seeded(seed, used[j]).value
    requires Seeded(seed, used[i]).None? ==> r[i].prefix !in taken
    requires Seeded(seed, used[j]).None? ==> r[j].prefix !in taken
    requires Seeded(seed, used[i]).None? && Seeded(seed, used[j]).None? ==> r[i].prefix != r[j].prefix
    ensures r[i].prefix != r[j].prefix
  {
    var a, b := Seeded(seed, used[i]), Seeded(seed, used[j]);
    if a.Some? && b.Some? {
      SeededDiffer(seed, used[i], used[j]);
    } else if a.Some? {
      SeededIsConfigured(seed, used[i]);
    } else if b.Some? {
      SeededIsConfigured(seed, used[j]);
    }
  }

  lemma {:induction false} AutoPrefixDistinct(a: nat, b: nat)
    requires a != b
    ensures AutoPrefix(a) != AutoPrefix(b)
  {
    if AutoPrefix(a) == AutoPrefix(b) {
      AutoPrefixInjective(a, b);
    }
  }

  /** Minting the free name `nsK` leaves every later name free. */
  lemma {:induction false} MintedStaysFree(taken: set<string>, counter: nat)
    requires forall k: nat :: counter <= k ==> AutoPrefix(k) !in taken
    ensures FreshCounter(taken, counter) == counter
    ensures forall k: nat :: counter + 1 <= k ==> AutoPrefix(k) !in taken + {AutoPrefix(counter)}
  {
    assert AutoPrefix(counter) !in taken;
    forall k: nat | counter + 1 <= k ensures AutoPrefix(k) !in taken + {AutoPrefix(counter)} {
      AutoPrefixDistinct(k, counter);
    }
  }

  /** One step of the corrected assignment on a namespace without a seeded prefix. */
  lemma {:induction false} AssignDistinctMints(used: seq<string>, seed: seq<PrefixEntry>, taken: set<string>, counter: nat)
    requires |used| > 0 && Seeded(seed, used[0]).None?
    requires FreshCounter(taken, counter) == counter
    ensures AssignDistinct(used, seed, taken, counter)
         == [PrefixEntry(AutoPrefix(counter), used[0])] + AssignDistinct(used[1..], seed, taken + {AutoPrefix(counter)}, counter + 1)
  {
  }

  /** One step of the source's assignment on a namespace without a seeded prefix. */
  lemma {:induction false} AssignAsWrittenMints(used: seq<string>, seed: seq<PrefixEntry>, counter: nat)
    requires |used| > 0 && Seeded(seed, used[0]).None?
    ensures AssignAsWritten(used, seed, counter)
         == [PrefixEntry(AutoPrefix(counter), used[0])] + AssignAsWritten(used[1..], seed, counter + 1)
  {
  }

  /** When no name the counter could mint is taken, the corrected assignment
      is the one the source performs. */
  lemma {:induction false} AssignmentsAgreeWithoutCollision(used: seq<string>, seed: seq<PrefixEntry>, taken: set<string>, counter: nat)
    requires forall k: nat :: counter <= k ==> AutoPrefix(k) !in taken
    ensures AssignDistinct(used, seed, taken, counter) == AssignAsWritten(used, seed, counter)
    decreases |used|
  {
    if |used| > 0 {
      match Seeded(seed, used[0])
      case Some(p) =>
        AssignmentsAgreeWithoutCollision(used[1..], seed, taken, counter);
      case None =>
        MintedStaysFree(taken, counter);
        AssignmentsAgreeWithoutCollision(used[1..], seed, taken + {AutoPrefix(counter)}, counter + 1);
        AssignDistinctMints(used, seed, taken, counter);
        AssignAsWrittenMints(used, seed, counter);
    }
  }

  /** A configuration without prefixes of the minted form `nsK` sees exactly
      the source's prefix table. */
  lemma {:induction false} ExtractionAgreesWithoutMintedNames(seed: seq<PrefixEntry>, uris: seq<string>)
    requires forall i, k: nat :: 0 <= i < |seed| && 1 <= k ==> seed[i].prefix != AutoPrefix(k)
    ensures ExtractPrefixes(seed, uris) == ExtractPrefixesAsWritten(seed, uris)
  {
    AssignmentsAgreeWithoutCollision(UsedNamespaces(uris), seed, SeedPrefixes(seed), 1);
  }
}

=== FILE: rdf.dfy ===
/** RDF terms and triples, the vocabulary names both converters look for,
    and the scans they make over a triple store. */
module Rdf {
  import opened Seqs

  /** A number as JavaScript's `parseInt` leaves it: an integer or NaN. */
  datatype Card = Finite(n: int) | NaN

  /** An RDF term. Both converters compare terms by their lexical `value`
      alone; a literal also carries what `parseInt` makes of that value. */
  datatype Term = Node(value: string) | Literal(value: string, number: Card)

  datatype Triple = Triple(subject: string, pred: string, obj: Term)

  /** A triple store, listed in the order in which the converters iterate it. */
  type Store = seq<Triple>

  const SHACL := "http://www.w3.org/ns/shacl#"
  const RDF := "http://www.w3.org/1999/02/22-rdf-syntax-ns#"
  const RDFS := "http://www.w3.org/2000/01/rdf-schema#"
  const VOID := "http://rdfs.org/ns/void#"
  const XSD := "http://www.w3.org/2001/XMLSchema#"

  const RDF_TYPE := RDF + "type"
  const RDFS_SUBCLASS_OF := RDFS + "subClassOf"
  const RDFS_RESOURCE := RDFS + "Resource"
  const VOID_ENTITIES := VOID + "entities"
  const XSD_STRING := XSD + "string"
  const SH_NODE_SHAPE := SHACL + "NodeShape"
  const SH_PROPERTY_SHAPE := SHACL + "PropertyShape"
  const SH_TARGET_CLASS := SHACL + "targetClass"
  const SH_PROPERTY := SHACL + "property"
  const SH_PATH := SHACL + "path"
  const SH_DATATYPE := SHACL + "datatype"
  const SH_CLASS := SHACL + "class"
  const SH_NODE := SHACL + "node"
  const SH_MIN_COUNT := SHACL + "minCount"
  const SH_MAX_COUNT := SHACL + "maxCount"
  const SH_OR := SHACL + "or"

  /** sh:class and void:entities are different predicates, so at most one
      of the branches of an `if … else if` on them applies. */
  lemma ClassIsNotEntities()
    ensures SH_CLASS != VOID_ENTITIES
  {
    assert SH_CLASS[7] == 'w' && VOID_ENTITIES[7] == 'r';
  }

  /** `parseInt(t.value)`: the value of an IRI or blank node does not start
      with a digit, so it parses to NaN. */
  function ParseInt(t: Term): Card {
    match t
    case Node(_) => NaN
    case Literal(_, n) => n
  }

  /** `parseInt(t.value) || 0`: NaN becomes 0. */
  function NumberOrZero(t: Term): int {
    match ParseInt(t)
    case Finite(n) => n
    case NaN => 0
  }

  /** `parseInt(x)` for a looked-up term, or `otherwise` when there is none. */
  function CardOr(o: Option<Term>, otherwise: Card): Card {
    match o
    case Some(t) => ParseInt(t)
    case None => otherwise
  }

  /** The triple has subject `s` and predicate `p`. */
  predicate About(t: Triple, s: string, p: string) {
    t.subject == s && t.pred == p
  }

  /** The triple has predicate `p` and an object whose value is `o`. */
  predicate Points(t: Triple, p: string, o: string) {
    t.pred == p && t.obj.value == o
  }

  /** The store holds the triple (s, p, o), objects compared by value. */
  predicate Holds(store: Store, s: string, p: string, o: string) {
    exists i :: 0 <= i < |store| && store[i].subject == s && Points(store[i], p, o)
  }

  /** The objects of the triples (s, p, _), in store order. */
  function Objects(store: Store, s: string, p: string): (r: seq<Term>)
    ensures |r| <= |store|
    ensures forall o :: o in r <==> exists i :: 0 <= i < |store| && About(store[i], s, p) && store[i].obj == o
  {
    if |store| == 0 then []
    else
      var init := Objects(store[..|store| - 1], s, p);
      assert forall i :: 0 <= i < |store| - 1 ==> store[..|store| - 1][i] == store[i];
      var t := store[|store| - 1];
      if About(t, s, p) then init + [t.obj] else init
  }

  /** The values of the objects of the triples (s, p, _), in store order. */
  function ObjectValues(store: Store, s: string, p: string): (r: seq<string>)
    ensures |r| <= |store|
    ensures forall v :: v in r <==> Holds(store, s, p, v)
  {
    if |store| == 0 then []
    else
      var init := ObjectValues(store[..|store| - 1], s, p);
      assert forall i :: 0 <= i < |store| - 1 ==> store[..|store| - 1][i] == store[i];
      var t := store[|store| - 1];
      if About(t, s, p) then init + [t.obj.value] else init
  }

  /** What a scan for (s, p, _) collects from one triple: its object's value. */
  function ObjectOf(s: string, p: string): Triple -> Option<string> {
    t => if About(t, s, p) then Some(t.obj.value) else None
  }

  /** `ObjectValues` is the push-on-match loop over the store. */
  lemma {:induction false} ObjectValuesAreChosen(store: Store, s: string, p: string)
    ensures ObjectValues(store, s, p) == Choose(store, ObjectOf(s, p))
    decreases |store|
  {
    if |store| > 0 {
      ObjectValuesAreChosen(store[..|store| - 1], s, p);
    }
  }

  /** The objects are listed in store order: one per (s, p) triple, and the
      value of the triple at position i comes right after the values of the
      (s, p) triples before it. */
  lemma {:induction false} ObjectValuesInOrder(store: Store, s: string, p: string)
    ensures |ObjectValues(store, s, p)| == Produced(store, ObjectOf(s, p))
    ensures forall i :: 0 <= i < |store| && About(store[i], s, p) ==>
              Produced(store[..i], ObjectOf(s, p)) < |ObjectValues(store, s, p)|
              && ObjectValues(store, s, p)[Produced(store[..i], ObjectOf(s, p))] == store[i].obj.value
  {
    ObjectValuesAreChosen(store, s, p);
    ChooseInOrder(store, ObjectOf(s, p));
  }

  /** The subjects of the triples (_, p, o), objects compared by value, in
      store order and with repetitions. */
  function Subjects(store: Store, p: string, o: string): (r: seq<string>)
    ensures |r| <= |store|
    ensures forall x :: x in r <==> Holds(store, x, p, o)
  {
    if |store| == 0 then []
    else
      var init := Subjects(store[..|store| - 1], p, o);
      assert forall i :: 0 <= i < |store| - 1 ==> store[..|store| - 1][i] == store[i];
      var t := store[|store| - 1];
      if Points(t, p, o) then init + [t.subject] else init
  }

  /** What a scan for (_, p, o) collects from one triple: its subject. */
  function SubjectOf(p: string, o: string): Triple -> Option<string> {
    t => if Points(t, p, o) then Some(t.subject) else None
  }

  lemma {:induction false} SubjectsAreChosen(store: Store, p: string, o: string)
    ensures Subjects(store, p, o) == Choose(store, SubjectOf(p, o))
    decreases |store|
  {
    if |store| > 0 {
      SubjectsAreChosen(store[..|store| - 1], p, o);
    }
  }

  /** The subjects are listed in store order: one per (_, p, o) triple, and
      the subject of the triple at position i comes right after the subjects
      of the matching triples before it. */
  lemma {:induction false} SubjectsInOrder(store: Store, p: string, o: string)
    ensures |Subjects(store, p, o)| == Produced(store, SubjectOf(p, o))
    ensures forall i :: 0 <= i < |store| && Points(store[i], p, o) ==>
              Produced(store[..i], SubjectOf(p, o)) < |Subjects(store, p, o)|
              && Subjects(store, p, o)[Produced(store[..i], SubjectOf(p, o))] == store[i].subject
  {
    SubjectsAreChosen(store, p, o);
    ChooseInOrder(store, SubjectOf(p, o));
  }

  /** How many times the store lists the triple (s, p, o). */
  function Occurrences(store: Store, s: string, p: string, o: string): (r: nat)
    ensures r == 0 <==> !Holds(store, s, p, o)
  {
    if |store| == 0 then 0
    else
      var n := Occurrences(store[..|store| - 1], s, p, o);
      assert forall i :: 0 <= i < |store| - 1 ==> store[..|store| - 1][i] == store[i];
      var t := store[|store| - 1];
      if t.subject == s && Points(t, p, o) then n + 1 else n
  }

  /** The object of the first triple (s, p, _): `store.getQuads(s, p, null)[0]`. */
  function First(store: Store, s: string, p: string): (r: Option<Term>)
    ensures r.None? <==> forall i :: 0 <= i < |store| ==> !About(store[i], s, p)
    ensures r.Some? ==> exists i :: 0 <= i < |store| && About(store[i], s, p) && store[i].obj == r.value
                                     && forall j :: 0 <= j < i ==> !About(store[j], s, p)
  {
    if |store| == 0 then None
    else
      var init := First(store[..|store| - 1], s, p);
      assert forall i :: 0 <= i < |store| - 1 ==> store[..|store| - 1][i] == store[i];
      var t := store[|store| - 1];
      if init.Some? then init
      else if About(t, s, p) then Some(t.obj)
      else None
  }

  /** The object of the last triple (s, p, _): what a scan that overwrites a
      variable on every match ends with. */
  function Last(store: Store, s: string, p: string): (r: Option<Term>)
    ensures r.None? <==> forall i :: 0 <= i < |store| ==> !About(store[i], s, p)
    ensures r.Some? ==> exists i :: 0 <= i < |store| && About(store[i], s, p) && store[i].obj == r.value
                                     && forall j :: i < j < |store| ==> !About(store[j], s, p)
  {
    if |store| == 0 then None
    else
      var t := store[|store| - 1];
      if About(t, s, p) then Some(t.obj)
      else
        var init := Last(store[..|store| - 1], s, p);
        assert forall i :: 0 <= i < |store| - 1 ==> store[..|store| - 1][i] == store[i];
        init
  }

  /** One more triple scanned: a matching one becomes the last value. */
  lemma {:induction false} LastStep(store: Store, i: nat, s: string, p: string)
    requires i < |store|
    ensures Last(store[..i + 1], s, p) == if About(store[i], s, p) then Some(store[i].obj) else Last(store[..i], s, p)
  {
    assert store[..i + 1][..i] == store[..i];
  }

  /** One more triple scanned: a matching one appends its object's value. */
  lemma {:induction false} ObjectValuesStep(store: Store, i: nat, s: string, p: string)
    requires i < |store|
    ensures ObjectValues(store[..i + 1], s, p) == ObjectValues(store[..i], s, p) + if About(store[i], s, p) then [store[i].obj.value] else []
  {
    assert store[..i + 1][..i] == store[..i];
  }

  /** One more triple scanned: a copy of (s, p, o) counts once more. */
  lemma {:induction false} OccurrencesStep(store: Store, i: nat, s: string, p: string, o: string)
    requires i < |store|
    ensures Occurrences(store[..i + 1], s, p, o) == Occurrences(store[..i], s, p, o) + if store[i].subject == s && Points(store[i], p, o) then 1 else 0
  {
    assert store[..i + 1][..i] == store[..i];
  }

  /** `c` is what parseInt makes of the object of the LAST triple (s, p, _),
      or `otherwise` when there is none. */
  ghost predicate LastCard(store: Store, s: string, p: string, c: Card, otherwise: Card) {
    && ((forall i :: 0 <= i < |store| ==> !About(store[i], s, p)) ==> c == otherwise)
    && (forall i :: 0 <= i < |store| && About(store[i], s, p) && (forall j :: i < j < |store| ==> !About(store[j], s, p)) ==>
          c == ParseInt(store[i].obj))
  }

  /** `c` is what parseInt makes of the object of the FIRST triple (s, p, _),
      or `otherwise` when there is none. */
  ghost predicate FirstCard(store: Store, s: string, p: string, c: Card, otherwise: Card) {
    && ((forall i :: 0 <= i < |store| ==> !About(store[i], s, p)) ==> c == otherwise)
    && (forall i :: 0 <= i < |store| && About(store[i], s, p) && (forall j :: 0 <= j < i ==> !About(store[j], s, p)) ==>
          c == ParseInt(store[i].obj))
  }

  /** A scan that keeps `parseInt` of the last value it meets, starting from
      a default, reads the last (s, p) triple. */
  lemma {:induction false} CardOrLast(store: Store, s: string, p: string, otherwise: Card)
    ensures LastCard(store, s, p, CardOr(Last(store, s, p), otherwise), otherwise)
  {
    var o := Last(store, s, p);
    if o.Some? {
      var k :| 0 <= k < |store| && About(store[k], s, p) && store[k].obj == o.value
               && forall j :: k < j < |store| ==> !About(store[j], s, p);
      forall i | 0 <= i < |store| && About(store[i], s, p) && (forall j :: i < j < |store| ==> !About(store[j], s, p))
        ensures CardOr(o, otherwise) == ParseInt(store[i].obj)
      {
        assert !(i < k) && !(k < i);
      }
    }
  }

  /** `parseInt(getQuads(s, p, null)[0])`, with a default when there is no
      match, reads the first (s, p) triple. */
  lemma {:induction false} CardOrFirst(store: Store, s: string, p: string, otherwise: Card)
    ensures FirstCard(store, s, p, CardOr(First(store, s, p), otherwise), otherwise)
  {
    var o := First(store, s, p);
    if o.Some? {
      var k :| 0 <= k < |store| && About(store[k], s, p) && store[k].obj == o.value
               && forall j :: 0 <= j < k ==> !About(store[j], s, p);
      forall i | 0 <= i < |store| && About(store[i], s, p) && (forall j :: 0 <= j < i ==> !About(store[j], s, p))
        ensures CardOr(o, otherwise) == ParseInt(store[i].obj)
      {
        assert !(i < k) && !(k < i);
      }
    }
  }

  /** The value of a looked-up term, or "" when there is none: JavaScript
      treats `undefined` and "" alike wherever the converters test a value. */
  function ValueOr(o: Option<Term>): string {
    match o
    case Some(t) => t.value
    case None => ""
  }

  /** The first and the last lookup agree with the full list of objects. */
  lemma {:induction false} FirstAndLastOfObjects(store: Store, s: string, p: string)
    ensures var os := Objects(store, s, p);
            && (|os| == 0 ==> First(store, s, p) == None && Last(store, s, p) == None)
            && (|os| > 0 ==> First(store, s, p) == Some(os[0]) && Last(store, s, p) == Some(os[|os| - 1]))
  {
    if |store| > 0 {
      var init := store[..|store| - 1];
      FirstAndLastOfObjects(init, s, p);
    }
  }
}

=== FILE: seqs.dfy ===
/** Sequence helpers for the JavaScript collection idioms both converters use:
    a `Set` iterated in insertion order, a loop that pushes some elements and
    skips others, and running sums. */
module Seqs {

  datatype Option<+T> = None | Some(value: T)

  predicate NoDuplicates<T(==)>(xs: seq<T>) {
    forall i, j :: 0 <= i < j < |xs| ==> xs[i] != xs[j]
  }

  /** Position of the first occurrence of `x` in `xs`. */
  function FirstIndex<T(==)>(xs: seq<T>, x: T): (r: nat)
    requires x in xs
    ensures r < |xs| && xs[r] == x
    ensures forall i :: 0 <= i < r ==> xs[i] != x
  {
    if xs[0] == x then 0 else 1 + FirstIndex(xs[1..], x)
  }

  /** A first occurrence is still the first one in any longer sequence. */
  lemma {:induction false} FirstIndexOfPrefix<T>(xs: seq<T>, k: nat, x: T)
    requires k <= |xs| && x in xs[..k]
    ensures x in xs && FirstIndex(xs, x) == FirstIndex(xs[..k], x)
  {
    var r := FirstIndex(xs[..k], x);
    assert xs[..k][r] == xs[r];
    forall i | 0 <= i < r ensures xs[i] != x {
      assert xs[..k][i] == xs[i];
    }
    FirstIndexUnique(xs, x, r);
  }

  /** The first occurrence is the only position holding `x` with none before it. */
  lemma {:induction false} FirstIndexUnique<T>(xs: seq<T>, x: T, r: nat)
    requires r < |xs| && xs[r] == x
    requires forall i :: 0 <= i < r ==> xs[i] != x
    ensures FirstIndex(xs, x) == r
  {
  }

  /** `r` lists its elements in the order of their first occurrences in `xs`. */
  predicate InFirstOccurrenceOrder<T(==)>(xs: seq<T>, r: seq<T>) {
    forall i, j :: 0 <= i < j < |r| ==> r[i] in xs && r[j] in xs && FirstIndex(xs, r[i]) < FirstIndex(xs, r[j])
  }

  /** The elements of `xs` without repetition, in order of first occurrence:
      what iterating `new Set(xs)` yields. */
  function Distinct<T(==,!new)>(xs: seq<T>): (r: seq<T>)
    ensures NoDuplicates(r)
    ensures forall x :: x in r <==> x in xs
    ensures InFirstOccurrenceOrder(xs, r)
    ensures |r| <= |xs|
  {
    if |xs| == 0 then []
    else
      var init := xs[..|xs| - 1];
      var d := Distinct(init);
      var x := xs[|xs| - 1];
      assert xs == init + [x];
      DistinctExtends(xs, d);
      if x in d then d else d + [x]
  }

  /** The step of `Distinct`: first indices measured in the shorter sequence
      stay the same, and a new last element comes after all of them. */
  lemma {:induction false} DistinctExtends<T>(xs: seq<T>, d: seq<T>)
    requires |xs| > 0
    requires forall x :: x in d <==> x in xs[..|xs| - 1]
    requires InFirstOccurrenceOrder(xs[..|xs| - 1], d)
    ensures InFirstOccurrenceOrder(xs, d)
    ensures xs[|xs| - 1] !in d ==> InFirstOccurrenceOrder(xs, d + [xs[|xs| - 1]])
  {
    var n := |xs| - 1;
    forall i | 0 <= i < |d|
      ensures d[i] in xs[..n] && d[i] in xs && FirstIndex(xs, d[i]) == FirstIndex(xs[..n], d[i]) < n
    {
      assert d[i] in d;
      FirstIndexOfPrefix(xs, n, d[i]);
    }
    if xs[n] !in d {
      forall i | 0 <= i < n ensures xs[i] != xs[n] {
        assert xs[..n][i] == xs[i];
      }
      FirstIndexUnique(xs, xs[n], n);
    }
  }

  /** Applies `f` to every element and keeps the defined results, in order:
      a loop that `continue`s past some elements and pushes a record for the others. */
  function Choose<S, T(==,!new)>(xs: seq<S>, f: S -> Option<T>): (r: seq<T>)
    ensures |r| <= |xs|
    ensures forall y :: y in r <==> exists i :: 0 <= i < |xs| && f(xs[i]) == Some(y)
  {
    if |xs| == 0 then []
    else
      var init := Choose(xs[..|xs| - 1], f);
      assert forall i :: 0 <= i < |xs| - 1 ==> xs[..|xs| - 1][i] == xs[i];
      match f(xs[|xs| - 1])
      case Some(y) => init + [y]
      case None => init
  }

  /** One more element is dropped when seen before and appended otherwise. */
  lemma {:induction false} DistinctSnoc<T(!new)>(xs: seq<T>, x: T)
    ensures Distinct(xs + [x]) == if x in Distinct(xs) then Distinct(xs) else Distinct(xs) + [x]
  {
    assert (xs + [x])[..|xs|] == xs;
  }

  /** `Choose` keeps exactly the defined results of the elements. */
  lemma {:induction false} ChooseMembers<S(!new), T(!new)>(xs: seq<S>, f: S -> Option<T>)
    ensures forall y :: y in Choose(xs, f) <==> exists x :: x in xs && f(x) == Some(y)
  {
    var chosen := Choose(xs, f);
    forall y | y in chosen ensures exists x :: x in xs && f(x) == Some(y) {
      var i :| 0 <= i < |xs| && f(xs[i]) == Some(y);
      assert xs[i] in xs;
    }
    forall y, x | x in xs && f(x) == Some(y) ensures y in chosen {
      var i :| 0 <= i < |xs| && xs[i] == x;
      assert f(xs[i]) == Some(y);
    }
  }

  /** Choosing from two sequences one after the other chooses from their concatenation. */
  lemma {:induction false} ChooseConcat<S, T(!new)>(xs: seq<S>, ys: seq<S>, f: S -> Option<T>)
    ensures Choose(xs + ys, f) == Choose(xs, f) + Choose(ys, f)
    decreases |ys|
  {
    if |ys| == 0 {
      assert xs + ys == xs;
    } else {
      var init := ys[..|ys| - 1];
      assert (xs + ys)[..|xs + ys| - 1] == xs + init;
      ChooseConcat(xs, init, f);
    }
  }

  /** Nothing is chosen from elements that `f` maps to None. */
  lemma {:induction false} ChooseNone<S, T(!new)>(xs: seq<S>, f: S -> Option<T>)
    requires forall i :: 0 <= i < |xs| ==> f(xs[i]).None?
    ensures Choose(xs, f) == []
    decreases |xs|
  {
    if |xs| > 0 {
      var init := xs[..|xs| - 1];
      assert forall i :: 0 <= i < |init| ==> init[i] == xs[i];
      ChooseNone(init, f);
    }
  }

  /** How many elements of `xs` `f` maps to a value. */
  function Produced<S, T>(xs: seq<S>, f: S -> Option<T>): nat {
    if |xs| == 0 then 0
    else Produced(xs[..|xs| - 1], f) + if f(xs[|xs| - 1]).Some? then 1 else 0
  }

  /** `Choose` keeps the order of `xs`: it yields one result per element that
      produces one, and the result of `xs[i]` comes right after the results
      of the elements before it. */
  lemma {:induction false} ChooseInOrder<S, T(!new)>(xs: seq<S>, f: S -> Option<T>)
    ensures |Choose(xs, f)| == Produced(xs, f)
    ensures forall i :: 0 <= i < |xs| && f(xs[i]).Some? ==>
              Produced(xs[..i], f) < |Choose(xs, f)| && Choose(xs, f)[Produced(xs[..i], f)] == f(xs[i]).value
    decreases |xs|
  {
    if |xs| > 0 {
      var n := |xs| - 1;
      var init := xs[..n];
      ChooseInOrder(init, f);
      var c := Choose(init, f);
      var r := Choose(xs, f);
      assert r == c + if f(xs[n]).Some? then [f(xs[n]).value] else [];
      forall i | 0 <= i < |xs| && f(xs[i]).Some?
        ensures Produced(xs[..i], f) < |r| && r[Produced(xs[..i], f)] == f(xs[i]).value
      {
        if i < n {
          assert init[..i] == xs[..i];
          assert init[i] == xs[i];
          var p := Produced(init[..i], f);
          assert p < |c| && r[p] == c[p];
        } else {
          assert xs[..i] == init;
        }
      }
    }
  }

  function Sum(xs: seq<int>): int {
    if |xs| == 0 then 0 else Sum(xs[..|xs| - 1]) + xs[|xs| - 1]
  }

  /** A sum of zeros is 0. */
  lemma {:induction false} SumOfZeros(xs: seq<int>)
    ensures (forall j :: 0 <= j < |xs| ==> xs[j] == 0) ==> Sum(xs) == 0
    decreases |xs|
  {
    if |xs| > 0 {
      var init := xs[..|xs| - 1];
      assert forall j :: 0 <= j < |init| ==> init[j] == xs[j];
      SumOfZeros(init);
    }
  }

  /** When every term but the `k`-th is 0, the sum is that term. */
  lemma {:induction false} SumOfLone(xs: seq<int>, k: nat)
    requires k < |xs|
    requires forall j :: 0 <= j < |xs| && j != k ==> xs[j] == 0
    ensures Sum(xs) == xs[k]
    decreases |xs|
  {
    var n := |xs| - 1;
    var init := xs[..n];
    assert forall j :: 0 <= j < |init| ==> init[j] == xs[j];
    if k < n {
      SumOfLone(init, k);
    } else {
      SumOfZeros(init);
    }
  }

  /** `k` copies of `xs` one after another. */
  function Repeat<T(!new)>(k: nat, xs: seq<T>): (r: seq<T>)
    ensures forall x :: x in r <==> k > 0 && x in xs
  {
    if k == 0 then [] else xs + Repeat(k - 1, xs)
  }

  /** One more copy can be added at either end. */
  lemma {:induction false} RepeatAppend<T(!new)>(k: nat, xs: seq<T>)
    ensures Repeat(k + 1, xs) == Repeat(k, xs) + xs
    decreases k
  {
    if k > 0 {
      RepeatAppend(k - 1, xs);
    }
  }
}

=== FILE: text.dfy ===
/** The JavaScript string operations the converters are built from, on
    strings as sequences of characters. */
module Text {

  /** `s.startsWith(p)` */
  predicate StartsWith(s: string, p: string) {
    |p| <= |s| && s[..|p|] == p
  }

  /** `s.lastIndexOf(c)` for a one-character `c`: -1 when `c` does not occur. */
  function LastIndexOf(s: string, c: char): (r: int)
    ensures -1 <= r < |s|
    ensures r >= 0 ==> s[r] == c
    ensures forall i :: r < i < |s| ==> s[i] != c
    ensures r >= 0 <==> c in s
  {
    if |s| == 0 then -1
    else if s[|s| - 1] == c then |s| - 1
    else
      assert s == s[..|s| - 1] + [s[|s| - 1]];
      LastIndexOf(s[..|s| - 1], c)
  }

  /** `s.indexOf(c)` for a one-character `c`: -1 when `c` does not occur. */
  function IndexOf(s: string, c: char): (r: int)
    ensures -1 <= r < |s|
    ensures r >= 0 ==> s[r] == c
    ensures forall i :: 0 <= i < |s| && (r < 0 || i < r) ==> s[i] != c
  {
    if |s| == 0 then -1
    else if s[0] == c then 0
    else
      var k := IndexOf(s[1..], c);
      assert forall i :: 1 <= i < |s| ==> s[1..][i - 1] == s[i];
      if k < 0 then -1 else k + 1
  }

  /** `s.split(c).pop()`: the text after the last `c`, or all of `s` when `c`
      does not occur. */
  function AfterLast(s: string, c: char): (r: string)
    ensures c !in r
    ensures |r| <= |s| && s == s[..|s| - |r|] + r
    ensures c !in s ==> r == s
    ensures c in s ==> |r| < |s| && s[|s| - |r| - 1] == c
  {
    var k := LastIndexOf(s, c);
    SuffixAfter(s, c, k);
    s[k + 1..]
  }

  /** Nothing follows the last `c` exactly when the string is empty or ends with `c`. */
  lemma {:induction false} AfterLastEmpty(s: string, c: char)
    ensures AfterLast(s, c) == "" <==> |s| == 0 || s[|s| - 1] == c
  {
    var k := LastIndexOf(s, c);
    assert |AfterLast(s, c)| == |s| - k - 1;
    if |s| > 0 && s[|s| - 1] == c {
      assert k >= |s| - 1;
    }
  }

  /** What follows the last `c` (at `k`, or -1 for none) holds no `c`. */
  lemma {:induction false} SuffixAfter(s: string, c: char, k: int)
    requires -1 <= k < |s|
    requires forall i :: k < i < |s| ==> s[i] != c
    ensures c !in s[k + 1..]
    ensures s == s[..|s| - |s[k + 1..]|] + s[k + 1..]
  {
    var r := s[k + 1..];
    assert |r| == |s| - k - 1;
    assert s[..|s| - |r|] == s[..k + 1];
    assert s == s[..k + 1] + r;
    forall i | 0 <= i < |r| ensures r[i] != c {
      assert r[i] == s[k + 1 + i];
    }
  }

  /** `s.split(c)[1]` for an `s` in which `c` occurs: the text between the
      first `c` and the next one, or the end. */
  function SecondField(s: string, c: char): (r: string)
    requires c in s
    ensures c !in r
  {
    var rest := s[IndexOf(s, c) + 1..];
    var k := IndexOf(rest, c);
    if k < 0 then rest else rest[..k]
  }

  function DigitChar(d: nat): (r: char)
    requires d < 10
    ensures '0' <= r <= '9'
  {
    ('0' as int + d) as char
  }

  /** The decimal rendering of `n`, as a template literal writes a counter. */
  function NatToString(n: nat): (r: string)
    ensures 1 <= |r|
    ensures n >= 10 ==> 2 <= |r|
    decreases n
  {
    if n < 10 then [DigitChar(n)] else NatToString(n / 10) + [DigitChar(n % 10)]
  }

  /** Different numbers are written differently. */
  lemma {:induction false} NatToStringInjective(a: nat, b: nat)
    requires NatToString(a) == NatToString(b)
    ensures a == b
    decreases a
  {
    var s := NatToString(a);
    if a >= 10 && b >= 10 {
      assert s[|s| - 1] == DigitChar(a % 10) == DigitChar(b % 10);
      assert s[..|s| - 1] == NatToString(a / 10) == NatToString(b / 10);
      NatToStringInjective(a / 10, b / 10);
    }
  }
}

=== FILE: viziquer.dfy ===
/** `convertToViziQuerSchema`: the SHACL shapes of a store become the
    classes, attributes and associations of a ViziQuer schema. Node shapes
    become classes; each property shape referenced from a node shape and
    having a path becomes an attribute when it names a datatype, an
    association when it names a target class, a node shape or a typed
    `sh:or` alternative that names a class, and nothing otherwise. */
module ViziQuer {
  import opened Seqs
  import opened Text
  import opened Rdf
  import opened Prefixes
  import opened SchemaParameters

  /** `fetchEntityCount(uri, isClass, endpoint)`: the instances of a class
      (flag true) or the triples using a property (flag false), as the SPARQL
      endpoint reports them; a failed request already reads as 0. */
  type CountService = (string, bool) -> nat

  /** An entry of a class's `properties`. */
  datatype PropertyRef = PropertyRef(
    localName: string, prefix: Option<string>, fullName: string,
    valueType: string, minCardinality: Card, maxCardinality: Card)

  datatype ClassEntry = ClassEntry(
    localName: string, prefix: Option<string>, fullName: string,
    superClasses: seq<string>, instanceCount: int, properties: seq<PropertyRef>)

  datatype ClassPair = ClassPair(sourceClass: string, targetClass: string)

  datatype AttributeEntry = AttributeEntry(
    localName: string, prefix: Option<string>, fullName: string,
    minCardinality: Card, maxCardinality: Card, sourceClasses: seq<string>,
    valueType: string)

  datatype AssociationEntry = AssociationEntry(
    localName: string, prefix: Option<string>, fullName: string,
    minCardinality: Card, maxCardinality: Card, sourceClasses: seq<string>,
    classPairs: seq<ClassPair>, tripleCount: int)

  datatype Schema = Schema(
    schemaName: string, classes: seq<ClassEntry>, attributes: seq<AttributeEntry>,
    associations: seq<AssociationEntry>, prefixes: seq<PrefixEntry>,
    parameters: seq<Parameter>)

  /* ---------------------------------------------------------------- */
  /* What a shape declares, stated directly over the store.            */

  /** The last value the shape gives for `p` is a non-empty string. */
  predicate Declares(store: Store, s: string, p: string) {
    ValueOr(Last(store, s, p)) != ""
  }

  /** The shape lists an `sh:or` alternative that is typed sh:PropertyShape
      and names a class. */
  ghost predicate HasOrTarget(store: Store, ps: string) {
    exists alt, c :: Holds(store, ps, SH_OR, alt) && Holds(store, alt, RDF_TYPE, SH_PROPERTY_SHAPE)
                     && Holds(store, alt, SH_CLASS, c)
  }

  /** The name parts of an entry put back together give its full URI: a
      prefix stands for the namespace of a table entry, and no prefix means
      the local name is the whole URI or follows a namespace with an empty
      prefix. */
  ghost predicate Reassembles(table: seq<PrefixEntry>, prefix: Option<string>, localName: string, uri: string) {
    match prefix
    case Some(p) =>
      p != "" && exists i :: 0 <= i < |table| && table[i].prefix == p && table[i].namespace + localName == uri
    case None =>
      localName == uri || exists i :: 0 <= i < |table| && table[i].prefix == "" && table[i].namespace + localName == uri
  }

  /** `{ prefix: prefix || undefined, localName }` for `getLocalNameAndPrefix(uri)`. */
  function SplitName(table: seq<PrefixEntry>, uri: string): (r: NameSplit)
    ensures Reassembles(table, r.prefix, r.localName, uri)
    ensures forall i :: FirstMatch(table, uri, i) ==>
              r == NameSplit(NonEmpty(Some(table[i].prefix)), uri[|table[i].namespace|..])
    ensures (forall i :: 0 <= i < |table| ==> !StartsWith(uri, table[i].namespace)) ==> r == NameSplit(None, uri)
  {
    var sp := LocalNameAndPrefix(table, uri);
    NameSplit(NonEmpty(sp.prefix), sp.localName)
  }

  /** With two entries whose namespaces both start the URI, the earlier one
      supplies the prefix, even though the later namespace is longer. */
  lemma {:induction false} SplitNameTakesFirstEntry()
    ensures SplitName([PrefixEntry("a", "http://x/"), PrefixEntry("b", "http://x/y/")], "http://x/y/z")
            == NameSplit(Some("a"), "y/z")
  {
    var table := [PrefixEntry("a", "http://x/"), PrefixEntry("b", "http://x/y/")];
    var uri := "http://x/y/z";
    assert uri[..|table[0].namespace|] == table[0].namespace;
    assert FirstMatch(table, uri, 0);
    assert uri[|table[0].namespace|..] == "y/z";
  }

  /** One more typing adds one more copy of the classes and of the sum. */
  lemma {:induction false} OneMoreTyping(n: nat, classes: seq<string>, e: int, targets: seq<string>, entities: int)
    requires targets == Repeat(n, classes) && entities == n * e
    ensures targets + classes == Repeat(n + 1, classes) && entities + e == (n + 1) * e
  {
    RepeatAppend(n, classes);
  }

  lemma {:induction false} MulMonotone(a: nat, b: nat, m: nat)
    requires a <= b
    ensures a * m <= b * m
    decreases b - a
  {
    if a < b {
      MulMonotone(a + 1, b, m);
      assert (a + 1) * m == a * m + m;
    }
  }

  /** Every URI qualified as `prefix:localName` where the table allows it. */
  function QualifiedAll(table: seq<PrefixEntry>, uris: seq<string>): (r: seq<string>)
    ensures |r| == |uris|
    ensures forall i :: 0 <= i < |uris| ==> r[i] == Qualified(table, uris[i])
  {
    seq(|uris|, i requires 0 <= i < |uris| => Qualified(table, uris[i]))
  }

  lemma {:induction false} QualifiedMembers(table: seq<PrefixEntry>, uris: seq<string>)
    ensures forall q :: q in QualifiedAll(table, uris) <==> exists u :: u in uris && q == Qualified(table, u)
  {
    var qualified := QualifiedAll(table, uris);
    forall q | q in qualified ensures exists u :: u in uris && q == Qualified(table, u) {
      var j :| 0 <= j < |qualified| && qualified[j] == q;
      assert uris[j] in uris;
    }
    forall q, u | u in uris && q == Qualified(table, u) ensures q in qualified {
      var j :| 0 <= j < |uris| && uris[j] == u;
      assert qualified[j] == q;
    }
  }

  /* ---------------------------------------------------------------- */
  /* Classes                                                           */

  /** `classUris`: the subjects typed sh:NodeShape, each once, in order of
      first appearance. */
  function NodeShapes(store: Store): (r: seq<string>)
    ensures NoDuplicates(r)
    ensures forall c :: c in r <==> Holds(store, c, RDF_TYPE, SH_NODE_SHAPE)
    ensures InFirstOccurrenceOrder(Subjects(store, RDF_TYPE, SH_NODE_SHAPE), r)
  {
    Distinct(Subjects(store, RDF_TYPE, SH_NODE_SHAPE))
  }

  /** `parseInt(x) || 0` for the last `void:entities` value of the class, or 0. */
  function EmbeddedCount(store: Store, c: string): int {
    match Last(store, c, VOID_ENTITIES)
    case Some(t) => NumberOrZero(t)
    case None => 0
  }

  /** An entry of a class's `properties`: a shape without a path yields none,
      and one with a path is read with string type, minimum 0 and maximum 1
      as defaults. */
  function PropertyRefOf(table: seq<PrefixEntry>, store: Store, ps: string): (r: Option<PropertyRef>)
    ensures r.Some? <==> Declares(store, ps, SH_PATH)
    ensures r.Some? ==> && r.value.fullName == ValueOr(Last(store, ps, SH_PATH)) != ""
                        && Reassembles(table, r.value.prefix, r.value.localName, r.value.fullName)
                        && NameSplit(r.value.prefix, r.value.localName) == SplitName(table, r.value.fullName)
    ensures r.Some? && Declares(store, ps, SH_DATATYPE) ==> r.value.valueType == ValueOr(Last(store, ps, SH_DATATYPE))
    ensures r.Some? && !Declares(store, ps, SH_DATATYPE) ==> r.value.valueType == XSD_STRING
    ensures r.Some? ==> LastCard(store, ps, SH_MIN_COUNT, r.value.minCardinality, Finite(0))
                        && LastCard(store, ps, SH_MAX_COUNT, r.value.maxCardinality, Finite(1))
  {
    var path := ValueOr(Last(store, ps, SH_PATH));
    if path == "" then None
    else
      var sp := SplitName(table, path);
      var dt := ValueOr(Last(store, ps, SH_DATATYPE));
      CardOrLast(store, ps, SH_MIN_COUNT, Finite(0));
      CardOrLast(store, ps, SH_MAX_COUNT, Finite(1));
      Some(PropertyRef(sp.localName, sp.prefix, path, if dt == "" then XSD_STRING else dt,
                       CardOr(Last(store, ps, SH_MIN_COUNT), Finite(0)),
                       CardOr(Last(store, ps, SH_MAX_COUNT), Finite(1))))
  }

  /** What the class's property loop makes of one shape. */
  function RefOf(table: seq<PrefixEntry>, store: Store): string -> Option<PropertyRef> {
    ps => PropertyRefOf(table, store, ps)
  }

  /** The schema entry for the node shape `c`: its properties come from the
      shapes it lists under sh:property, in that order, skipping those
      without a path. */
  function ClassOf(table: seq<PrefixEntry>, store: Store, count: CountService, c: string): (r: ClassEntry)
    ensures r.fullName == c
    ensures Reassembles(table, r.prefix, r.localName, c)
    ensures NameSplit(r.prefix, r.localName) == SplitName(table, c)
    ensures var supers := ObjectValues(store, c, RDFS_SUBCLASS_OF);
            |r.superClasses| == |supers| && forall i :: 0 <= i < |supers| ==> r.superClasses[i] == Qualified(table, supers[i])
    ensures EmbeddedCount(store, c) != 0 ==> r.instanceCount == EmbeddedCount(store, c)
    ensures EmbeddedCount(store, c) == 0 ==> r.instanceCount == count(c, true)
    ensures forall p :: p in r.properties <==>
              exists ps :: Holds(store, c, SH_PROPERTY, ps) && PropertyRefOf(table, store, ps) == Some(p)
    ensures var shapes := ObjectValues(store, c, SH_PROPERTY);
            && |r.properties| == Produced(shapes, RefOf(table, store))
            && forall i :: 0 <= i < |shapes| && PropertyRefOf(table, store, shapes[i]).Some? ==>
                 Produced(shapes[..i], RefOf(table, store)) < |r.properties|
                 && r.properties[Produced(shapes[..i], RefOf(table, store))] == PropertyRefOf(table, store, shapes[i]).value
  {
    var sp := SplitName(table, c);
    var embedded := EmbeddedCount(store, c);
    var shapes := ObjectValues(store, c, SH_PROPERTY);
    var props := Choose(shapes, RefOf(table, store));
    ChooseInOrder(shapes, RefOf(table, store));
    ChooseMembers(shapes, RefOf(table, store));
    ClassEntry(sp.localName, sp.prefix, c, QualifiedAll(table, ObjectValues(store, c, RDFS_SUBCLASS_OF)),
               if embedded == 0 then count(c, true) else embedded, props)
  }

  /** One class per node shape, in order of first appearance: a URI names
      a class exactly when the store types it sh:NodeShape, and no two
      classes share a name. */
  function Classes(table: seq<PrefixEntry>, store: Store, count: CountService): (r: seq<ClassEntry>)
    ensures var shapes := NodeShapes(store);
            |r| == |shapes| && forall i :: 0 <= i < |r| ==> r[i] == ClassOf(table, store, count, shapes[i])
    ensures forall c :: (exists i :: 0 <= i < |r| && r[i].fullName == c) <==> Holds(store, c, RDF_TYPE, SH_NODE_SHAPE)
    ensures forall i, j :: 0 <= i < j < |r| ==> r[i].fullName != r[j].fullName
  {
    var shapes := NodeShapes(store);
    var r := seq(|shapes|, i requires 0 <= i < |shapes| => ClassOf(table, store, count, shapes[i]));
    assert forall c :: (exists i :: 0 <= i < |r| && r[i].fullName == c) <==> c in shapes by {
      forall c | c in shapes ensures exists i :: 0 <= i < |r| && r[i].fullName == c {
        var i :| 0 <= i < |shapes| && shapes[i] == c;
        assert r[i].fullName == c;
      }
    }
    r
  }

  /* ---------------------------------------------------------------- */
  /* Attributes and associations                                       */

  /** The second `propertyShapes` set: objects of sh:property triples whose
      subject is a node shape, each once, in order of first appearance. */
  function ReferencedShapes(store: Store): (r: seq<string>)
    ensures NoDuplicates(r)
    ensures forall ps :: ps in r <==>
              exists c :: Holds(store, c, SH_PROPERTY, ps) && Holds(store, c, RDF_TYPE, SH_NODE_SHAPE)
  {
    var cs := NodeShapes(store);
    var f := (t: Triple) => if t.pred == SH_PROPERTY && t.subject in cs then Some(t.obj.value) else None;
    var found := Choose(store, f);
    assert forall ps :: ps in found <==>
             exists c :: Holds(store, c, SH_PROPERTY, ps) && Holds(store, c, RDF_TYPE, SH_NODE_SHAPE) by {
      forall ps | ps in found
        ensures exists c :: Holds(store, c, SH_PROPERTY, ps) && Holds(store, c, RDF_TYPE, SH_NODE_SHAPE)
      {
        var i :| 0 <= i < |store| && f(store[i]) == Some(ps);
        assert Holds(store, store[i].subject, SH_PROPERTY, ps);
      }
      forall ps, c | Holds(store, c, SH_PROPERTY, ps) && Holds(store, c, RDF_TYPE, SH_NODE_SHAPE)
        ensures ps in found
      {
        var i :| 0 <= i < |store| && store[i].subject == c && Points(store[i], SH_PROPERTY, ps);
        assert f(store[i]) == Some(ps);
      }
    }
    Distinct(found)
  }

  /** How often the store types `alt` as sh:PropertyShape: the `sh:or` scan
      visits the alternative once for each such triple. */
  function Typings(store: Store, alt: string): nat {
    Occurrences(store, alt, RDF_TYPE, SH_PROPERTY_SHAPE)
  }

  /** The `orTargets` the `sh:or` alternatives contribute: the sh:class
      values of each typed alternative, once per typing. */
  function OrTargetsOf(store: Store, alts: seq<string>): (r: seq<string>)
    ensures forall c :: c in r <==>
              exists i :: 0 <= i < |alts| && Holds(store, alts[i], RDF_TYPE, SH_PROPERTY_SHAPE)
                                          && Holds(store, alts[i], SH_CLASS, c)
    decreases |alts|
  {
    if |alts| == 0 then []
    else
      var init := alts[..|alts| - 1];
      var alt := alts[|alts| - 1];
      assert forall i :: 0 <= i < |init| ==> init[i] == alts[i];
      OrTargetsOf(store, init) + Repeat(Typings(store, alt), ObjectValues(store, alt, SH_CLASS))
  }

  /** The sum of `parseInt(x) || 0` over a list of terms. */
  function Total(ts: seq<Term>): int {
    if |ts| == 0 then 0 else Total(ts[..|ts| - 1]) + NumberOrZero(ts[|ts| - 1])
  }

  /** What the inner scan adds to `orEntities` for one typing of `s`: the
      `parseInt(x) || 0` of every `void:entities` value of `s`, so 0 when
      there is none. */
  function EntitySum(store: Store, s: string): (r: int)
    ensures r == Total(Objects(store, s, VOID_ENTITIES))
    ensures (forall i :: 0 <= i < |store| ==> !About(store[i], s, VOID_ENTITIES)) ==> r == 0
    decreases |store|
  {
    if |store| == 0 then 0
    else
      var init := store[..|store| - 1];
      var t := store[|store| - 1];
      var os := Objects(init, s, VOID_ENTITIES);
      assert forall i :: 0 <= i < |init| ==> init[i] == store[i];
      assert (os + [t.obj])[..|os|] == os;
      EntitySum(init, s) + if About(t, s, VOID_ENTITIES) then NumberOrZero(t.obj) else 0
  }

  /** One more triple scanned: a `void:entities` value of `s` is added. */
  lemma {:induction false} EntitySumStep(store: Store, i: nat, s: string)
    requires i < |store|
    ensures EntitySum(store[..i + 1], s) == EntitySum(store[..i], s) + if About(store[i], s, VOID_ENTITIES) then NumberOrZero(store[i].obj) else 0
  {
    assert store[..i + 1][..i] == store[..i];
  }

  /** The alternative adds nothing to `orEntities`: it is never typed
      sh:PropertyShape or its entity counts sum to 0. */
  predicate Silent(store: Store, alt: string) {
    Typings(store, alt) == 0 || EntitySum(store, alt) == 0
  }

  /** What one alternative adds to `orEntities`: its entity counts once per
      typing, so nothing when it is silent. */
  function Contribution(store: Store, alt: string): (r: int)
    ensures Silent(store, alt) ==> r == 0
  {
    var n := Typings(store, alt);
    var e := EntitySum(store, alt);
    assert n == 0 || e == 0 ==> n * e == 0;
    n * e
  }

  /** What each alternative adds, in order. */
  function Contributions(store: Store, alts: seq<string>): (r: seq<int>)
    ensures |r| == |alts| && forall i :: 0 <= i < |alts| ==> r[i] == Contribution(store, alts[i])
  {
    seq(|alts|, i requires 0 <= i < |alts| => Contribution(store, alts[i]))
  }

  /** `orEntities`: every typing of every alternative adds its entity counts;
      nothing when every alternative is silent. */
  function OrEntitiesOf(store: Store, alts: seq<string>): (r: int)
    ensures (forall i :: 0 <= i < |alts| ==> Silent(store, alts[i])) ==> r == 0
  {
    var cs := Contributions(store, alts);
    SumOfZeros(cs);
    Sum(cs)
  }

  /** When all alternatives but one are silent, that one accounts for the
      whole `orEntities`: its entity counts once per typing. */
  lemma LoneContributor(store: Store, alts: seq<string>, k: nat)
    requires k < |alts|
    requires forall j :: 0 <= j < |alts| && j != k ==> Silent(store, alts[j])
    ensures OrEntitiesOf(store, alts) == Typings(store, alts[k]) * EntitySum(store, alts[k])
  {
    var cs := Contributions(store, alts);
    assert forall j :: 0 <= j < |cs| && j != k ==> cs[j] == 0;
    SumOfLone(cs, k);
  }

  /** The facts the converter's scan over one property shape collects; a
      missing string value reads as "". */
  datatype ShapeFacts = ShapeFacts(
    path: string, dataType: string, classTarget: string, nodeShape: string,
    minCount: Option<Term>, maxCount: Option<Term>,
    orTargets: seq<string>, orEntities: int)

  /** The scan keeps the last value of each single-valued key and collects
      the `sh:or` targets and entity counts of all alternatives. */
  function ReadShape(store: Store, ps: string): (r: ShapeFacts)
    ensures r.path == ValueOr(Last(store, ps, SH_PATH)) && r.dataType == ValueOr(Last(store, ps, SH_DATATYPE))
    ensures r.classTarget == ValueOr(Last(store, ps, SH_CLASS)) && r.nodeShape == ValueOr(Last(store, ps, SH_NODE))
    ensures r.minCount == Last(store, ps, SH_MIN_COUNT) && r.maxCount == Last(store, ps, SH_MAX_COUNT)
    ensures forall c :: c in r.orTargets <==>
              (exists alt :: Holds(store, ps, SH_OR, alt) && Holds(store, alt, RDF_TYPE, SH_PROPERTY_SHAPE) && Holds(store, alt, SH_CLASS, c))
    ensures |r.orTargets| > 0 <==> HasOrTarget(store, ps)
    ensures r.orTargets == OrTargetsOf(store, ObjectValues(store, ps, SH_OR))
    ensures r.orEntities == OrEntitiesOf(store, ObjectValues(store, ps, SH_OR))
  {
    var alts := ObjectValues(store, ps, SH_OR);
    var ors := OrTargetsOf(store, alts);
    assert forall c :: c in ors <==>
             (exists alt :: Holds(store, ps, SH_OR, alt) && Holds(store, alt, RDF_TYPE, SH_PROPERTY_SHAPE) && Holds(store, alt, SH_CLASS, c)) by {
      forall c | c in ors
        ensures exists alt :: Holds(store, ps, SH_OR, alt) && Holds(store, alt, RDF_TYPE, SH_PROPERTY_SHAPE) && Holds(store, alt, SH_CLASS, c)
      {
        var i :| 0 <= i < |alts| && Holds(store, alts[i], RDF_TYPE, SH_PROPERTY_SHAPE) && Holds(store, alts[i], SH_CLASS, c);
        assert alts[i] in alts;
      }
      forall c, alt | Holds(store, ps, SH_OR, alt) && Holds(store, alt, RDF_TYPE, SH_PROPERTY_SHAPE) && Holds(store, alt, SH_CLASS, c)
        ensures c in ors
      {
        assert alt in alts;
        var i :| 0 <= i < |alts| && alts[i] == alt;
      }
    }
    assert |ors| > 0 <==> HasOrTarget(store, ps) by {
      if |ors| > 0 {
        assert ors[0] in ors;
        var i :| 0 <= i < |alts| && Holds(store, alts[i], RDF_TYPE, SH_PROPERTY_SHAPE) && Holds(store, alts[i], SH_CLASS, ors[0]);
        assert alts[i] in alts;
      }
      if HasOrTarget(store, ps) {
        var alt, c :| Holds(store, ps, SH_OR, alt) && Holds(store, alt, RDF_TYPE, SH_PROPERTY_SHAPE) && Holds(store, alt, SH_CLASS, c);
        assert alt in alts;
        var i :| 0 <= i < |alts| && alts[i] == alt;
        assert c in ors;
      }
    }
    ReadShapeIn(store, store, ps)
  }

  /** The facts the scan has collected once it has visited the triples of
      `scanned`; alternatives are always looked up in the whole store. */
  function ReadShapeIn(store: Store, scanned: Store, ps: string): ShapeFacts {
    var alts := ObjectValues(scanned, ps, SH_OR);
    ShapeFacts(ValueOr(Last(scanned, ps, SH_PATH)), ValueOr(Last(scanned, ps, SH_DATATYPE)),
               ValueOr(Last(scanned, ps, SH_CLASS)), ValueOr(Last(scanned, ps, SH_NODE)),
               Last(scanned, ps, SH_MIN_COUNT), Last(scanned, ps, SH_MAX_COUNT),
               OrTargetsOf(store, alts), OrEntitiesOf(store, alts))
  }

  /** What visiting one triple does to the collected facts. */
  function Absorb(store: Store, ps: string, f: ShapeFacts, t: Triple): ShapeFacts {
    if t.subject != ps then f
    else
      var alt := t.obj.value;
      f.(path := if t.pred == SH_PATH then t.obj.value else f.path,
         dataType := if t.pred == SH_DATATYPE then t.obj.value else f.dataType,
         classTarget := if t.pred == SH_CLASS then t.obj.value else f.classTarget,
         nodeShape := if t.pred == SH_NODE then t.obj.value else f.nodeShape,
         minCount := if t.pred == SH_MIN_COUNT then Some(t.obj) else f.minCount,
         maxCount := if t.pred == SH_MAX_COUNT then Some(t.obj) else f.maxCount,
         orTargets := if t.pred == SH_OR then f.orTargets + Repeat(Typings(store, alt), ObjectValues(store, alt, SH_CLASS))
                      else f.orTargets,
         orEntities := if t.pred == SH_OR then f.orEntities + Typings(store, alt) * EntitySum(store, alt)
                       else f.orEntities)
  }

  /** Visiting the next triple of the store moves the collected facts on by
      one `Absorb` step. */
  lemma {:induction false} ReadShapeStep(store: Store, i: nat, ps: string)
    requires i < |store|
    ensures ReadShapeIn(store, store[..i + 1], ps) == Absorb(store, ps, ReadShapeIn(store, store[..i], ps), store[i])
  {
    var t := store[i];
    var alts := ObjectValues(store[..i], ps, SH_OR);
    var before := ReadShapeIn(store, store[..i], ps);
    var after := ReadShapeIn(store, store[..i + 1], ps);
    LastStep(store, i, ps, SH_PATH);
    LastStep(store, i, ps, SH_DATATYPE);
    LastStep(store, i, ps, SH_CLASS);
    LastStep(store, i, ps, SH_NODE);
    LastStep(store, i, ps, SH_MIN_COUNT);
    LastStep(store, i, ps, SH_MAX_COUNT);
    ObjectValuesStep(store, i, ps, SH_OR);
    if t.subject != ps {
      assert ObjectValues(store[..i + 1], ps, SH_OR) == alts;
      assert after == before;
    } else if t.pred == SH_OR {
      OrStep(store, alts, t.obj.value);
      assert after.orTargets == Absorb(store, ps, before, t).orTargets;
      assert after.orEntities == Absorb(store, ps, before, t).orEntities;
    } else {
      assert ObjectValues(store[..i + 1], ps, SH_OR) == alts;
      assert after.orTargets == before.orTargets && after.orEntities == before.orEntities;
    }
  }

  /** One more alternative adds its own targets and entity counts. */
  lemma {:induction false} OrStep(store: Store, alts: seq<string>, alt: string)
    ensures OrTargetsOf(store, alts + [alt]) == OrTargetsOf(store, alts) + Repeat(Typings(store, alt), ObjectValues(store, alt, SH_CLASS))
    ensures OrEntitiesOf(store, alts + [alt]) == OrEntitiesOf(store, alts) + Typings(store, alt) * EntitySum(store, alt)
  {
    assert (alts + [alt])[..|alts|] == alts;
    assert Contributions(store, alts + [alt])[..|alts|] == Contributions(store, alts);
  }

  /** The innermost scan of an `sh:or` alternative: its sh:class values in
      store order, and the sum of `parseInt(x) || 0` over its
      `void:entities` values. */
  method ScanAlternativeBody(store: Store, alt: string) returns (classes: seq<string>, entities: int)
    ensures classes == ObjectValues(store, alt, SH_CLASS)
    ensures entities == EntitySum(store, alt)
  {
    classes, entities := [], 0;
    ClassIsNotEntities();
    var k := 0;
    while k < |store|
      invariant 0 <= k <= |store|
      invariant classes == ObjectValues(store[..k], alt, SH_CLASS)
      invariant entities == EntitySum(store[..k], alt)
    {
      var t := store[k];
      EntitySumStep(store, k, alt);
      ObjectValuesStep(store, k, alt, SH_CLASS);
      if t.subject == alt && t.pred == SH_CLASS {
        assert About(t, alt, SH_CLASS) && !About(t, alt, VOID_ENTITIES);
        assert ObjectValues(store[..k + 1], alt, SH_CLASS) == classes + [t.obj.value];
        classes := classes + [t.obj.value];
      } else if t.subject == alt && t.pred == VOID_ENTITIES {
        assert !About(t, alt, SH_CLASS) && About(t, alt, VOID_ENTITIES);
        assert ObjectValues(store[..k + 1], alt, SH_CLASS) == classes;
        entities := entities + NumberOrZero(t.obj);
      } else {
        assert !About(t, alt, SH_CLASS) && !About(t, alt, VOID_ENTITIES);
        assert ObjectValues(store[..k + 1], alt, SH_CLASS) == classes;
      }
      k := k + 1;
    }
    assert store[..k] == store;
  }

  /** The middle scan: every triple typing the alternative sh:PropertyShape
      runs the innermost scan once more and adds what it finds. */
  method ScanAlternative(store: Store, alt: string) returns (targets: seq<string>, entities: int)
    ensures targets == Repeat(Typings(store, alt), ObjectValues(store, alt, SH_CLASS))
    ensures entities == Typings(store, alt) * EntitySum(store, alt)
  {
    targets, entities := [], 0;
    ghost var classes := ObjectValues(store, alt, SH_CLASS);
    ghost var e := EntitySum(store, alt);
    ghost var n := 0;
    var j := 0;
    while j < |store|
      invariant 0 <= j <= |store|
      invariant n == Occurrences(store[..j], alt, RDF_TYPE, SH_PROPERTY_SHAPE)
      invariant targets == Repeat(n, classes)
      invariant entities == n * e
    {
      var t := store[j];
      var typed := t.subject == alt && t.pred == RDF_TYPE && t.obj.value == SH_PROPERTY_SHAPE;
      OccurrencesStep(store, j, alt, RDF_TYPE, SH_PROPERTY_SHAPE);
      assert Occurrences(store[..j + 1], alt, RDF_TYPE, SH_PROPERTY_SHAPE) == if typed then n + 1 else n;
      if typed {
        OneMoreTyping(n, classes, e, targets, entities);
        var found, sum := ScanAlternativeBody(store, alt);
        targets := targets + found;
        entities := entities + sum;
        n := n + 1;
      }
      j := j + 1;
    }
    assert store[..j] == store;
  }


  /** The converter's `store.forEach` over the triples of one property shape:
      single values are overwritten on every match, and each `sh:or` triple
      scans its alternative. It leaves exactly the facts `ReadShape` reads. */
  method ScanShape(store: Store, ps: string) returns (f: ShapeFacts)
    ensures f == ReadShape(store, ps)
  {
    f := ShapeFacts("", "", "", "", None, None, [], 0);
    var i := 0;
    while i < |store|
      invariant 0 <= i <= |store|
      invariant f == ReadShapeIn(store, store[..i], ps)
    {
      var t := store[i];
      ghost var before := f;
      ReadShapeStep(store, i, ps);
      if t.subject == ps {
        if t.pred == SH_PATH { f := f.(path := t.obj.value); }
        if t.pred == SH_DATATYPE { f := f.(dataType := t.obj.value); }
        if t.pred == SH_CLASS { f := f.(classTarget := t.obj.value); }
        if t.pred == SH_MIN_COUNT { f := f.(minCount := Some(t.obj)); }
        if t.pred == SH_MAX_COUNT { f := f.(maxCount := Some(t.obj)); }
        if t.pred == SH_NODE { f := f.(nodeShape := t.obj.value); }
        if t.pred == SH_OR {
          var targets, entities := ScanAlternative(store, t.obj.value);
          f := f.(orTargets := f.orTargets + targets, orEntities := f.orEntities + entities);
        }
      }
      assert f == Absorb(store, ps, before, t);
      i := i + 1;
    }
    assert store[..i] == store;
  }

  /** `SourceClasses`: every subject that lists the shape under sh:property,
      in store order with repetitions, qualified where the table allows. One
      entry per (_, sh:property, ps) triple, and the subject of the triple at
      position i comes right after those of the matching triples before it. */
  function SourceClasses(table: seq<PrefixEntry>, store: Store, ps: string): (r: seq<string>)
    ensures forall q :: q in r <==> exists c :: Holds(store, c, SH_PROPERTY, ps) && q == Qualified(table, c)
    ensures |r| == Produced(store, SubjectOf(SH_PROPERTY, ps))
    ensures forall i :: 0 <= i < |store| && Points(store[i], SH_PROPERTY, ps) ==>
              Produced(store[..i], SubjectOf(SH_PROPERTY, ps)) < |r|
              && r[Produced(store[..i], SubjectOf(SH_PROPERTY, ps))] == Qualified(table, store[i].subject)
  {
    var subjects := Subjects(store, SH_PROPERTY, ps);
    SubjectsInOrder(store, SH_PROPERTY, ps);
    QualifiedMembers(table, subjects);
    QualifiedAll(table, subjects)
  }

  /** The `targets` of an association: its sh:class, merged without
      repetition with the `sh:or` targets when there are any, then the
      target classes of its sh:node shape. */
  function Targets(store: Store, f: ShapeFacts): (r: seq<string>)
    ensures forall t :: t in r <==> (f.classTarget != "" && t == f.classTarget) || t in f.orTargets
                                    || (f.nodeShape != "" && Holds(store, f.nodeShape, SH_TARGET_CLASS, t))
    ensures var tail := if f.nodeShape != "" then ObjectValues(store, f.nodeShape, SH_TARGET_CLASS) else [];
            |tail| <= |r| && r[|r| - |tail|..] == tail
    ensures var base := if f.classTarget != "" then [f.classTarget] else [];
            var tail := if f.nodeShape != "" then ObjectValues(store, f.nodeShape, SH_TARGET_CLASS) else [];
            && |tail| <= |r|
            && (|f.orTargets| == 0 ==> r[..|r| - |tail|] == base)
            && (|f.orTargets| > 0 ==> && NoDuplicates(r[..|r| - |tail|])
                                      && (forall t :: t in r[..|r| - |tail|] <==> t in base + f.orTargets)
                                      && InFirstOccurrenceOrder(base + f.orTargets, r[..|r| - |tail|]))
  {
    var base := if f.classTarget != "" then [f.classTarget] else [];
    var merged := if |f.orTargets| > 0 then Distinct(base + f.orTargets) else base;
    var tail := if f.nodeShape != "" then ObjectValues(store, f.nodeShape, SH_TARGET_CLASS) else [];
    assert (merged + tail)[..|merged|] == merged;
    merged + if f.nodeShape != "" then ObjectValues(store, f.nodeShape, SH_TARGET_CLASS) else []
  }

  /** `sources.flatMap(s => targets.map(t => pair(s, t)))`. */
  function Pairs(sources: seq<string>, targets: seq<string>): (r: seq<ClassPair>)
    ensures |r| == |sources| * |targets|
    ensures forall p :: p in r <==> p.sourceClass in sources && p.targetClass in targets
    decreases |sources|
  {
    if |sources| == 0 then []
    else
      var init := sources[..|sources| - 1];
      var s := sources[|sources| - 1];
      assert sources == init + [s];
      var row := seq(|targets|, j requires 0 <= j < |targets| => ClassPair(s, targets[j]));
      assert forall p :: p in row <==> p.sourceClass == s && p.targetClass in targets by {
        forall p: ClassPair | p.sourceClass == s && p.targetClass in targets ensures p in row {
          var j :| 0 <= j < |targets| && targets[j] == p.targetClass;
          assert row[j] == p;
        }
      }
      Pairs(init, targets) + row
  }

  /** The pairs are listed source by source: the pair of the i-th source
      and the j-th target sits at position i * |targets| + j. */
  lemma {:induction false} PairsAreSourceMajor(sources: seq<string>, targets: seq<string>, i: nat, j: nat)
    requires i < |sources| && j < |targets|
    ensures i * |targets| + j < |Pairs(sources, targets)|
    ensures Pairs(sources, targets)[i * |targets| + j] == ClassPair(sources[i], targets[j])
    decreases |sources|
  {
    var n := |sources| - 1;
    var init := sources[..n];
    var m := |targets|;
    assert |Pairs(init, targets)| == n * m;
    if i < n {
      MulMonotone(i + 1, n, m);
      assert (i + 1) * m == i * m + m;
      PairsAreSourceMajor(init, targets, i, j);
      assert init[i] == sources[i];
    } else {
      assert i * m + j - n * m == j;
    }
  }

  /** Pairing sources with qualified targets pairs every source with the
      qualified form of every target. */
  lemma {:induction false} QualifiedPairs(table: seq<PrefixEntry>, sources: seq<string>, targets: seq<string>)
    ensures forall p :: p in Pairs(sources, QualifiedAll(table, targets)) <==>
              p.sourceClass in sources && exists t :: t in targets && p.targetClass == Qualified(table, t)
  {
    QualifiedMembers(table, targets);
  }

  /** The attribute for a property shape: only a shape with both a path and
      a datatype yields one; its maximum defaults to 1. */
  function AttributeOf(table: seq<PrefixEntry>, store: Store, ps: string): (r: Option<AttributeEntry>)
    ensures r.Some? <==> Declares(store, ps, SH_PATH) && Declares(store, ps, SH_DATATYPE)
    ensures r.Some? ==> && r.value.fullName == ValueOr(Last(store, ps, SH_PATH))
                        && r.value.valueType == ValueOr(Last(store, ps, SH_DATATYPE))
                        && Reassembles(table, r.value.prefix, r.value.localName, r.value.fullName)
                        && NameSplit(r.value.prefix, r.value.localName) == SplitName(table, r.value.fullName)
                        && LastCard(store, ps, SH_MIN_COUNT, r.value.minCardinality, Finite(0))
                        && LastCard(store, ps, SH_MAX_COUNT, r.value.maxCardinality, Finite(1))
                        && r.value.sourceClasses == SourceClasses(table, store, ps)
  {
    var f := ReadShape(store, ps);
    if f.path == "" || f.dataType == "" then None
    else
      var sp := SplitName(table, f.path);
      CardOrLast(store, ps, SH_MIN_COUNT, Finite(0));
      CardOrLast(store, ps, SH_MAX_COUNT, Finite(1));
      Some(AttributeEntry(sp.localName, sp.prefix, f.path,
                          CardOr(f.minCount, Finite(0)), CardOr(f.maxCount, Finite(1)),
                          SourceClasses(table, store, ps), f.dataType))
  }

  /** A shape that links to classes: a path, no datatype, and a class, a
      node shape or a typed `sh:or` alternative naming a class. */
  ghost predicate LinksClasses(store: Store, ps: string) {
    Declares(store, ps, SH_PATH) && !Declares(store, ps, SH_DATATYPE)
    && (Declares(store, ps, SH_CLASS) || Declares(store, ps, SH_NODE) || HasOrTarget(store, ps))
  }

  /** The converter's association test on the scanned facts is the
      declarative one. */
  lemma {:induction false} ScanLinksClasses(store: Store, ps: string)
    ensures var f := ReadShape(store, ps);
            (f.path != "" && f.dataType == "" && (f.classTarget != "" || f.nodeShape != "" || |f.orTargets| > 0))
            <==> LinksClasses(store, ps)
  {
  }

  /** The association for a property shape. Its maximum defaults to -1, it
      pairs every source class with every target, and its triple count is
      the `sh:or` entity total when that is positive and the endpoint's
      count for the path otherwise. */
  function AssociationOf(table: seq<PrefixEntry>, store: Store, count: CountService, ps: string): (r: Option<AssociationEntry>)
    ensures r.Some? <==> LinksClasses(store, ps)
    ensures r.Some? ==> && r.value.fullName == ValueOr(Last(store, ps, SH_PATH))
                        && Reassembles(table, r.value.prefix, r.value.localName, r.value.fullName)
                        && NameSplit(r.value.prefix, r.value.localName) == SplitName(table, r.value.fullName)
                        && LastCard(store, ps, SH_MIN_COUNT, r.value.minCardinality, Finite(0))
                        && LastCard(store, ps, SH_MAX_COUNT, r.value.maxCardinality, Finite(-1))
                        && r.value.sourceClasses == SourceClasses(table, store, ps)
    ensures r.Some? ==> r.value.classPairs == Pairs(SourceClasses(table, store, ps), QualifiedAll(table, Targets(store, ReadShape(store, ps))))
    ensures r.Some? ==> forall p :: p in r.value.classPairs <==>
                          p.sourceClass in SourceClasses(table, store, ps)
                          && exists t :: t in Targets(store, ReadShape(store, ps)) && p.targetClass == Qualified(table, t)
    ensures r.Some? ==> var total := OrEntitiesOf(store, ObjectValues(store, ps, SH_OR));
                        && (total > 0 ==> r.value.tripleCount == total)
                        && (total <= 0 ==> r.value.tripleCount == count(r.value.fullName, false))
  {
    var f := ReadShape(store, ps);
    ScanLinksClasses(store, ps);
    if f.path == "" || f.dataType != "" || (f.classTarget == "" && f.nodeShape == "" && |f.orTargets| == 0) then None
    else
      var sp := SplitName(table, f.path);
      var sources := SourceClasses(table, store, ps);
      var targets := Targets(store, f);
      var qualified := QualifiedAll(table, targets);
      QualifiedPairs(table, sources, targets);
      CardOrLast(store, ps, SH_MIN_COUNT, Finite(0));
      CardOrLast(store, ps, SH_MAX_COUNT, Finite(-1));
      Some(AssociationEntry(sp.localName, sp.prefix, f.path,
                            CardOr(f.minCount, Finite(0)), CardOr(f.maxCount, Finite(-1)),
                            sources, Pairs(sources, qualified),
                            if f.orEntities > 0 then f.orEntities else count(f.path, false)))
  }

  /* ---------------------------------------------------------------- */
  /* The schema                                                        */

  /** The URIs `extractPrefixes` scans, in its order: for each class its
      name, superclasses and property names; for each attribute its name,
      type and source classes; for each association its name, source
      classes and class pairs, the last three passed through `ColonPart`. */
  function ScannedUris(classes: seq<ClassEntry>, attributes: seq<AttributeEntry>, associations: seq<AssociationEntry>): seq<string> {
    ClassUris(classes) + AttributeUris(attributes) + AssociationUris(associations)
  }

  function PropertyNames(props: seq<PropertyRef>): seq<string> {
    seq(|props|, i requires 0 <= i < |props| => props[i].fullName)
  }

  function ColonParts(xs: seq<string>): (r: seq<string>)
    ensures |r| == |xs|
    ensures forall i :: 0 <= i < |r| ==> NamespaceOf(r[i]) == None
  {
    seq(|xs|, i requires 0 <= i < |xs| => ColonPart(xs[i]))
  }

  function PairParts(pairs: seq<ClassPair>): (r: seq<string>)
    ensures forall i :: 0 <= i < |r| ==> NamespaceOf(r[i]) == None
    decreases |pairs|
  {
    if |pairs| == 0 then []
    else
      var p := pairs[|pairs| - 1];
      PairParts(pairs[..|pairs| - 1]) + [ColonPart(p.sourceClass), ColonPart(p.targetClass)]
  }

  function ClassUris(classes: seq<ClassEntry>): seq<string>
    decreases |classes|
  {
    if |classes| == 0 then []
    else
      var c := classes[|classes| - 1];
      ClassUris(classes[..|classes| - 1]) + [c.fullName] + c.superClasses + PropertyNames(c.properties)
  }

  function AttributeUris(attributes: seq<AttributeEntry>): seq<string>
    decreases |attributes|
  {
    if |attributes| == 0 then []
    else
      var a := attributes[|attributes| - 1];
      AttributeUris(attributes[..|attributes| - 1]) + [a.fullName, a.valueType] + ColonParts(a.sourceClasses)
  }

  function AssociationUris(associations: seq<AssociationEntry>): seq<string>
    decreases |associations|
  {
    if |associations| == 0 then []
    else
      var a := associations[|associations| - 1];
      AssociationUris(associations[..|associations| - 1]) + [a.fullName] + ColonParts(a.sourceClasses) + PairParts(a.classPairs)
  }

  /** The URIs that can contribute a namespace: the scanned ones without
      the source classes and class pairs. */
  function NamedUris(classes: seq<ClassEntry>, attributes: seq<AttributeEntry>, associations: seq<AssociationEntry>): seq<string> {
    ClassUris(classes) + AttributeNames(attributes) + AssociationNames(associations)
  }

  function AttributeNames(attributes: seq<AttributeEntry>): seq<string>
    decreases |attributes|
  {
    if |attributes| == 0 then []
    else
      var a := attributes[|attributes| - 1];
      AttributeNames(attributes[..|attributes| - 1]) + [a.fullName, a.valueType]
  }

  function AssociationNames(associations: seq<AssociationEntry>): seq<string>
    decreases |associations|
  {
    if |associations| == 0 then []
    else AssociationNames(associations[..|associations| - 1]) + [associations[|associations| - 1].fullName]
  }

  /** What the attribute loop makes of one referenced shape. */
  function AttributeFor(table: seq<PrefixEntry>, store: Store): string -> Option<AttributeEntry> {
    ps => AttributeOf(table, store, ps)
  }

  /** What the association loop makes of one referenced shape. */
  function AssociationFor(table: seq<PrefixEntry>, store: Store, count: CountService): string -> Option<AssociationEntry> {
    ps => AssociationOf(table, store, count, ps)
  }

  /** `schema.Attributes`: the attributes of the referenced shapes, in the
      order of those shapes. One entry per shape that yields one, and the
      entry of the shape at position i comes right after those of the shapes
      before it. */
  function Attributes(table: seq<PrefixEntry>, store: Store): (r: seq<AttributeEntry>)
    ensures forall a :: a in r <==> exists ps :: ps in ReferencedShapes(store) && AttributeOf(table, store, ps) == Some(a)
    ensures var shapes := ReferencedShapes(store);
            && |r| == Produced(shapes, AttributeFor(table, store))
            && forall i :: 0 <= i < |shapes| && AttributeOf(table, store, shapes[i]).Some? ==>
                 Produced(shapes[..i], AttributeFor(table, store)) < |r|
                 && r[Produced(shapes[..i], AttributeFor(table, store))] == AttributeOf(table, store, shapes[i]).value
  {
    var shapes := ReferencedShapes(store);
    ChooseMembers(shapes, AttributeFor(table, store));
    ChooseInOrder(shapes, AttributeFor(table, store));
    Choose(shapes, AttributeFor(table, store))
  }

  /** `schema.Associations`: the associations of the referenced shapes, in
      the order of those shapes, placed as for `Attributes`. */
  function Associations(table: seq<PrefixEntry>, store: Store, count: CountService): (r: seq<AssociationEntry>)
    ensures forall a :: a in r <==> exists ps :: ps in ReferencedShapes(store) && AssociationOf(table, store, count, ps) == Some(a)
    ensures var shapes := ReferencedShapes(store);
            && |r| == Produced(shapes, AssociationFor(table, store, count))
            && forall i :: 0 <= i < |shapes| && AssociationOf(table, store, count, shapes[i]).Some? ==>
                 Produced(shapes[..i], AssociationFor(table, store, count)) < |r|
                 && r[Produced(shapes[..i], AssociationFor(table, store, count))] == AssociationOf(table, store, count, shapes[i]).value
  {
    var shapes := ReferencedShapes(store);
    ChooseMembers(shapes, AssociationFor(table, store, count));
    ChooseInOrder(shapes, AssociationFor(table, store, count));
    Choose(shapes, AssociationFor(table, store, count))
  }

  /** `convertToViziQuerSchema(store, schemaName, endpoint, { Prefixes: seed })`,
      with the endpoint's counts supplied by `count`: names are split
      against the configured prefixes, and the prefix table is built from
      the URIs the schema emits. */
  function Convert(store: Store, schemaName: string, endpoint: string, seed: seq<PrefixEntry>, count: CountService): (r: Schema)
    ensures r.schemaName == schemaName && r.parameters == Parameters(endpoint, schemaName)
    ensures r.classes == Classes(PrefixObject(seed), store, count)
    ensures r.attributes == Attributes(PrefixObject(seed), store)
    ensures r.associations == Associations(PrefixObject(seed), store, count)
    ensures Namespaces(r.prefixes) == UsedNamespaces(ScannedUris(r.classes, r.attributes, r.associations))
    ensures r.prefixes == ExtractPrefixesAsWritten(seed, ScannedUris(r.classes, r.attributes, r.associations))
  {
    var table := PrefixObject(seed);
    var classes := Classes(table, store, count);
    var attributes := Attributes(table, store);
    var associations := Associations(table, store, count);
    Schema(schemaName, classes, attributes, associations,
           ExtractPrefixesAsWritten(seed, ScannedUris(classes, attributes, associations)),
           Parameters(endpoint, schemaName))
  }

  /** The conversion with the prefix table built by `ExtractPrefixes`, which
      keeps minted prefixes clear of the configured ones; everything but the
      prefix table is the converter's. */
  function ConvertCorrected(store: Store, schemaName: string, endpoint: string, seed: seq<PrefixEntry>, count: CountService): (r: Schema)
    ensures var written := Convert(store, schemaName, endpoint, seed, count);
            && r.schemaName == written.schemaName && r.parameters == written.parameters
            && r.classes == written.classes && r.attributes == written.attributes && r.associations == written.associations
    ensures Namespaces(r.prefixes) == UsedNamespaces(ScannedUris(r.classes, r.attributes, r.associations))
    ensures forall i, j :: 0 <= i < j < |r.prefixes| ==> r.prefixes[i].namespace != r.prefixes[j].namespace
  {
    var written := Convert(store, schemaName, endpoint, seed, count);
    written.(prefixes := ExtractPrefixes(seed, ScannedUris(written.classes, written.attributes, written.associations)))
  }


  /* ---------------------------------------------------------------- */
  /* Properties of the conversion                                      */

  /** The source classes and class pairs the prefix scan passes through
      `ColonPart` never contribute a namespace: the prefix list is the one
      the class, attribute and association names alone give. */
  lemma {:induction false} SourceClassesAddNoPrefix(store: Store, schemaName: string, endpoint: string, seed: seq<PrefixEntry>, count: CountService)
    ensures var r := Convert(store, schemaName, endpoint, seed, count);
            r.prefixes == ExtractPrefixesAsWritten(seed, NamedUris(r.classes, r.attributes, r.associations))
  {
    var r := Convert(store, schemaName, endpoint, seed, count);
    ScannedNamespaces(r.classes, r.attributes, r.associations);
  }

  lemma {:induction false} ScannedNamespaces(classes: seq<ClassEntry>, attributes: seq<AttributeEntry>, associations: seq<AssociationEntry>)
    ensures UsedNamespaces(ScannedUris(classes, attributes, associations)) == UsedNamespaces(NamedUris(classes, attributes, associations))
  {
    var cs := ClassUris(classes);
    AttributeNamespaces(attributes);
    AssociationNamespaces(associations);
    ChooseConcat(cs + AttributeUris(attributes), AssociationUris(associations), NamespaceOf);
    ChooseConcat(cs, AttributeUris(attributes), NamespaceOf);
    ChooseConcat(cs + AttributeNames(attributes), AssociationNames(associations), NamespaceOf);
    ChooseConcat(cs, AttributeNames(attributes), NamespaceOf);
  }

  lemma {:induction false} AttributeNamespaces(attributes: seq<AttributeEntry>)
    ensures Choose(AttributeUris(attributes), NamespaceOf) == Choose(AttributeNames(attributes), NamespaceOf)
    decreases |attributes|
  {
    if |attributes| > 0 {
      var init := attributes[..|attributes| - 1];
      var a := attributes[|attributes| - 1];
      AttributeNamespaces(init);
      ChooseConcat(AttributeUris(init) + [a.fullName, a.valueType], ColonParts(a.sourceClasses), NamespaceOf);
      ChooseNone(ColonParts(a.sourceClasses), NamespaceOf);
      ChooseConcat(AttributeUris(init), [a.fullName, a.valueType], NamespaceOf);
      ChooseConcat(AttributeNames(init), [a.fullName, a.valueType], NamespaceOf);
    }
  }

  lemma {:induction false} AssociationNamespaces(associations: seq<AssociationEntry>)
    ensures Choose(AssociationUris(associations), NamespaceOf) == Choose(AssociationNames(associations), NamespaceOf)
    decreases |associations|
  {
    if |associations| > 0 {
      var init := associations[..|associations| - 1];
      var a := associations[|associations| - 1];
      var head := AssociationUris(init) + [a.fullName];
      AssociationNamespaces(init);
      ChooseConcat(head + ColonParts(a.sourceClasses), PairParts(a.classPairs), NamespaceOf);
      ChooseConcat(head, ColonParts(a.sourceClasses), NamespaceOf);
      ChooseNone(ColonParts(a.sourceClasses), NamespaceOf);
      ChooseNone(PairParts(a.classPairs), NamespaceOf);
      ChooseConcat(AssociationUris(init), [a.fullName], NamespaceOf);
      ChooseConcat(AssociationNames(init), [a.fullName], NamespaceOf);
    }
  }

  /** With a configuration that gives distinct namespaces distinct
      prefixes, the corrected schema's prefix list never repeats a prefix. */
  lemma {:induction false} ConvertedPrefixesDistinct(store: Store, schemaName: string, endpoint: string, seed: seq<PrefixEntry>, count: CountService)
    requires InjectiveSeed(seed)
    ensures var r := ConvertCorrected(store, schemaName, endpoint, seed, count);
            forall i, j :: 0 <= i < j < |r.prefixes| ==> r.prefixes[i].prefix != r.prefixes[j].prefix
  {
    var r := ConvertCorrected(store, schemaName, endpoint, seed, count);
    ExtractedPrefixesAreDistinct(seed, ScannedUris(r.classes, r.attributes, r.associations));
  }

  /** A configuration without prefixes of the minted form `nsK` gets the
      converter's schema unchanged from the corrected conversion. */
  lemma {:induction false} ConvertAgreesWithoutMintedNames(store: Store, schemaName: string, endpoint: string, seed: seq<PrefixEntry>, count: CountService)
    requires forall i, k: nat :: 0 <= i < |seed| && 1 <= k ==> seed[i].prefix != AutoPrefix(k)
    ensures ConvertCorrected(store, schemaName, endpoint, seed, count) == Convert(store, schemaName, endpoint, seed, count)
  {
    var r := Convert(store, schemaName, endpoint, seed, count);
    ExtractionAgreesWithoutMintedNames(seed, ScannedUris(r.classes, r.attributes, r.associations));
  }

  /** Every attribute comes from a referenced shape whose last sh:path value
      is its (non-empty) full name: a shape without a path yields none. */
  lemma {:induction false} AttributesHavePaths(table: seq<PrefixEntry>, store: Store)
    ensures forall a :: a in Attributes(table, store) ==>
              exists ps :: ps in ReferencedShapes(store) && a.fullName == ValueOr(Last(store, ps, SH_PATH)) != ""
  {
    forall a | a in Attributes(table, store)
      ensures exists ps :: ps in ReferencedShapes(store) && a.fullName == ValueOr(Last(store, ps, SH_PATH)) != ""
    {
      var ps :| ps in ReferencedShapes(store) && AttributeOf(table, store, ps) == Some(a);
      assert Declares(store, ps, SH_PATH);
    }
  }

  /** Every association comes from a referenced shape whose last sh:path
      value is its (non-empty) full name. */
  lemma {:induction false} AssociationsHavePaths(table: seq<PrefixEntry>, store: Store, count: CountService)
    ensures forall a :: a in Associations(table, store, count) ==>
              exists ps :: ps in ReferencedShapes(store) && a.fullName == ValueOr(Last(store, ps, SH_PATH)) != ""
  {
    forall a | a in Associations(table, store, count)
      ensures exists ps :: ps in ReferencedShapes(store) && a.fullName == ValueOr(Last(store, ps, SH_PATH)) != ""
    {
      var ps :| ps in ReferencedShapes(store) && AssociationOf(table, store, count, ps) == Some(a);
      assert LinksClasses(store, ps);
    }
  }

  /** Every entry of a class's property list comes from a shape the class
      lists under sh:property that declares a path, and that path is its
      full name. */
  lemma {:induction false} ClassPropertiesHavePaths(table: seq<PrefixEntry>, store: Store, count: CountService)
    ensures var classes := Classes(table, store, count);
            forall i, p :: 0 <= i < |classes| && p in classes[i].properties ==>
              exists ps :: Holds(store, classes[i].fullName, SH_PROPERTY, ps) && p.fullName == ValueOr(Last(store, ps, SH_PATH)) != ""
  {
    var classes := Classes(table, store, count);
    forall i, p | 0 <= i < |classes| && p in classes[i].properties
      ensures exists ps :: Holds(store, classes[i].fullName, SH_PROPERTY, ps) && p.fullName == ValueOr(Last(store, ps, SH_PATH)) != ""
    {
      var c := classes[i].fullName;
      var ps :| Holds(store, c, SH_PROPERTY, ps) && PropertyRefOf(table, store, ps) == Some(p);
    }
  }
}
